=== FILE: README.md ===
# Arena shooter simulation core in Dafny

This project models the gameplay rules of a Unity arena shooter. The player
runs, bunny-hops, double-jumps, dashes and rail-jumps off their own railgun
shots. Bots strafe around the player and take badly aimed shots at it, and
sometimes hit each other. A spawn manager keeps the arena stocked with bots. A
game manager keeps the score and brings the player back after death.

Every script method is modelled as a pure step over an immutable record. The
engine's answers come in as parameters:
- time, `deltaTime` and the pause flag;
- keyboard state;
- `CharacterController.isGrounded`;
- ray hits, the distance to the ground and random draws;
- the vector magnitude.

Quantities are `real`. The engine's `Vector3.magnitude` is an oracle
`mag: Vec3 -> real`. Properties that need it to be the true length assume
`IsExact(mag)`, which says `mag(v) >= 0` and `mag(v)^2 == |v|^2`.
`Vector3.normalized` is modelled with Unity's rule (`Vectors.Normalized`): a
vector whose magnitude is at most `1e-5` normalizes to zero. `Invoke` timers
are lists of due times.

Modules, one per script plus shared pieces:

| file | module | models |
|---|---|---|
| base.dfy | `Base` | `Option`, `Mathf.Min/Max/Clamp01`, real-arithmetic helper lemmas |
| vectors.dfy | `Vectors` | `Vector3` arithmetic, `normalized`, the magnitude oracle |
| movement.dfy | `Movement` | `PlayerController` tuning, friction, ground/air acceleration, gravity |
| player.dfy | `Player` | `PlayerController` state, input timing, dash, per-frame movement, `Die`/`Respawn` |
| player_facts.dfy | `PlayerFacts` | properties of whole player frames and of a complete dash |
| railgun.dfy | `Railgun` | `Railgun`: cooldown, firing, kill dispatch, the rail-jump impulse |
| enemy.dfy | `Enemy` | `Enemy`: update gate, strafing, approach/retreat, attacks, `Die`/`Respawn` |
| spawning.dfy | `Spawning` | `SpawnManager`: spawn cap, spawn positions, deaths, player respawn point |
| game.dfy | `Game` | `GameManager`: kill/death counters and the player respawn |
| world.dfy | `World` | how the scripts call one another, and the invariant they keep together |

## Model

| member | source | states |
|---|---|---|
| Movement.ApplyFriction | Assets/Scripts/PlayerController.cs:252-267 | vertical velocity untouched; horizontal speed below 0.1 leaves the velocity as is; otherwise x and z are both scaled by `max(1 - groundFriction*dt, 0)` |
| Movement.FrictionRatio | Assets/Scripts/PlayerController.cs:259-265 | the source's `newSpeed/speed` equals `max(1 - groundFriction*dt, 0)` for every positive speed |
| Movement.FrictionFactorBounds | Assets/Scripts/PlayerController.cs:259-265 | the friction scale lies in [0, 1] for non-negative friction and dt |
| Movement.FrictionNeverSpeedsUp | Assets/Scripts/PlayerController.cs:252-267 | friction never flips the sign of x or z and never grows either component or the horizontal speed |
| Movement.ClampHorizontal | Assets/Scripts/PlayerController.cs:285-291 | the `maxBunnySpeed` clamp keeps y, leaves a slow enough velocity alone, and otherwise scales the horizontal part by one factor |
| Movement.ClampCaps | Assets/Scripts/PlayerController.cs:285-291 | the clamp factor lies in [0, 1], and with an exact magnitude the clamped horizontal speed is at most the cap |
| Movement.ClampSpeedBound | Assets/Scripts/PlayerController.cs:285-291 | with an exact magnitude the clamped horizontal speed squared is at most `maxBunnySpeed^2` |
| Movement.Accelerate | Assets/Scripts/PlayerController.cs:269-321 | the shared Quake acceleration: nothing happens once the projection on `wishDir` reaches the cap; otherwise the result obeys the speed clamp; y is untouched (the gain itself: `Movement.AccelerateGain`) |
| Movement.AccelerateGain | Assets/Scripts/PlayerController.cs:273-291 | below the cap the horizontal velocity becomes `v + min(rate, cap - projection)*wishDir` scaled by the clamp factor; when that sum is within `maxBunnySpeed` it is kept exactly and the projection grows by the step times the squared length of `wishDir` |
| Movement.PushGain | Assets/Scripts/PlayerController.cs:277-282 | the push adds `min(rate, cap - projection)` along a unit-or-shorter `wishDir`, so the projection grows but never passes the cap |
| Movement.AccelerateRespectsCap | Assets/Scripts/PlayerController.cs:269-321 | after acceleration and clamping, the projection on `wishDir` is at most the cap (when it was below it) |
| Movement.WishSpeed | Assets/Scripts/PlayerController.cs:182-184 | `moveSpeed`, times `sprintMultiplier` while sprinting; non-negative for valid tuning |
| Movement.WishDir | Assets/Scripts/PlayerController.cs:178-180 | the wish direction is at most unit length, and no input gives the zero vector |
| Movement.GroundRate | Assets/Scripts/PlayerController.cs:279 | the ground acceleration step is `wishSpeed*10*dt`, non-negative for non-negative inputs |
| Movement.AirRate | Assets/Scripts/PlayerController.cs:308 | the air acceleration step is `airAcceleration*controlMultiplier*dt`, non-negative for valid tuning |
| Movement.GroundAccelerate | Assets/Scripts/PlayerController.cs:269-292 | no change once the projection reaches `wishSpeed`; otherwise horizontal speed ends at most `maxBunnySpeed`; y untouched |
| Movement.GroundAccelerateGain | Assets/Scripts/PlayerController.cs:271-291 | below `wishSpeed`, ground acceleration adds exactly `min(wishSpeed*10*dt, wishSpeed - projection)` along `wishDir` when the result is within `maxBunnySpeed` |
| Movement.AirCap | Assets/Scripts/PlayerController.cs:297-304 | the air cap is `min(moveSpeed*airMaxSpeed, wishSpeed)`: at most both and equal to one of them, non-negative for valid tuning |
| Movement.AirAccelerate | Assets/Scripts/PlayerController.cs:294-321 | no change once the projection reaches the air cap; otherwise horizontal speed ends at most `maxBunnySpeed`; y untouched |
| Movement.AirAccelerateGain | Assets/Scripts/PlayerController.cs:294-320 | below the air cap, air acceleration adds exactly `min(airAcceleration*controlMultiplier*dt, cap - projection)` along `wishDir` when the result is within `maxBunnySpeed` |
| Movement.AirStrafeCapped | Assets/Scripts/PlayerController.cs:294-321 | air strafing never leaves the projection on `wishDir` above the larger of its old value and the air cap |
| Movement.GroundMoveCapped | Assets/Scripts/PlayerController.cs:269-292 | ground acceleration never leaves the projection on `wishDir` above the larger of its old value and `wishSpeed` |
| Movement.Gravity | Assets/Scripts/PlayerController.cs:242-246 | falling (vy <= 0) loses `gravity*fallGravityMultiplier*dt`, rising loses `gravity*dt`; for valid tuning gravity never raises vy |
| Movement.FallingPullsHarder | Assets/Scripts/PlayerController.cs:242-246 | with `fallGravityMultiplier >= 1`, a falling body loses at least as much vy per tick as a rising one |
| Player.Spawned | Assets/Scripts/PlayerController.cs:54-69 | a new player is alive, not dashing, with a jump count in range |
| Player.DashDirection | Assets/Scripts/PlayerController.cs:331-336 | `forward` when the input `right*x + forward*y` is shorter than 0.1; otherwise parallel to the input and on its side, with dot product equal to the input's length under an exact magnitude; a unit vector when `forward` is |
| Player.TryDash | Assets/Scripts/PlayerController.cs:328-347 | starting a dash sets `isDashing`, `dashTimeRemaining = dashDuration`, `lastDashTime = now`, vy = 0, locks the dash direction to `DashDirection` of this frame's input, and keeps position, grounding, life, jumps and press times |
| Player.HandleDash | Assets/Scripts/PlayerController.cs:349-365 | the dash moves `dir*dashSpeed*dt`, counts down, and on running out ends with velocity `dir*dashSpeed*0.5` and vy = -2 |
| Player.CanDash | Assets/Scripts/PlayerController.cs:323-326 | a dash may start once `dashCooldown` has passed since the last one; stated through `PlayerFacts.DashReadyAfterCooldown` and `Player.HandleInput` |
| PlayerFacts.DashReadyAfterCooldown | Assets/Scripts/PlayerController.cs:122-124 | after a dash starts at `now`, the next may start exactly from `now + dashCooldown` on and not earlier |
| Player.HandleInput | Assets/Scripts/PlayerController.cs:116-133 | a dash starts exactly on a shift tap within `doubleTapWindow` of the previous one with the dash cooldown over, locking this frame's dash direction; otherwise the dash fields and velocity are untouched; press times are recorded |
| Player.GroundPhase | Assets/Scripts/PlayerController.cs:187-209 | on the ground: a jump (press or bunny hop) sets vy = `jumpForce` and jump count 1; otherwise jump count 0 and a negative vy becomes -2 |
| Player.AirControl | Assets/Scripts/PlayerController.cs:213-225 | air control is `fallAirControlMultiplier` while falling (vy <= 0) and 1 while rising |
| Player.AirPhase | Assets/Scripts/PlayerController.cs:227-239 | a double jump happens exactly on a press with jumps left and sprint not held, and sets vy = `jumpForce`, one more jump |
| Player.NormalMove | Assets/Scripts/PlayerController.cs:164-249 | a normal frame updates only velocity, grounding and jump count, and moves by `velocity*dt` |
| Player.HandleMovement | Assets/Scripts/PlayerController.cs:155-162 | a dashing player runs only `HandleDash` (no grounding, jumping or gravity); any other player runs the normal grounded or airborne move |
| Player.Update | Assets/Scripts/PlayerController.cs:84-93 | a paused or dead player's frame changes nothing; no frame changes `isDead` or the position |
| Player.Teleport | Assets/Scripts/PlayerController.cs:367-373 | teleport places the body and stops it |
| Player.AddVelocity | Assets/Scripts/PlayerController.cs:375-379 | an impulse adds to velocity and leaves exactly one jump used |
| Player.Die | Assets/Scripts/PlayerController.cs:403-409 | the first death marks dead, zeroes velocity and notifies once; a dead player's death changes nothing |
| Player.Respawn | Assets/Scripts/PlayerController.cs:411-415 | respawn revives at the position at rest, keeping jump and dash state |
| PlayerFacts.GroundedTick | Assets/Scripts/PlayerController.cs:164-209 | a grounded normal frame: grounded, jump count 0 or 1, vy from jump/-2/kept then gravity, horizontal velocity = ground acceleration of the braked velocity, friction skipped exactly on a bunny hop |
| PlayerFacts.AirborneTick | Assets/Scripts/PlayerController.cs:211-246 | an airborne normal frame: jump count +1 exactly on a double jump, vy from the jump or kept then gravity, horizontal velocity = air acceleration |
| PlayerFacts.NoDoubleJumpWhileSprinting | Assets/Scripts/PlayerController.cs:227-239 | with sprint held, an airborne frame never adds a jump nor sets vy to `jumpForce` |
| PlayerFacts.UpdateKeepsJumpsInRange | Assets/Scripts/PlayerController.cs:54-55 | every frame keeps the jump count within 0..2 |
| PlayerFacts.OtherEntryPointsKeepJumpsInRange | Assets/Scripts/PlayerController.cs:367-415 | death, respawn, teleport and impulses keep the jump count within 0..2 |
| PlayerFacts.NoInputNoWish | Assets/Scripts/PlayerController.cs:178-180 | no WASD input means no wish direction |
| PlayerFacts.AccelerateNowhere | Assets/Scripts/PlayerController.cs:269-292 | with no wish direction acceleration only applies the speed clamp (positive cap) or nothing |
| PlayerFacts.IdleAccelerateScales | Assets/Scripts/PlayerController.cs:271-291 | accelerating towards no direction scales x and z by the clamp factor (positive cap) or leaves them (cap <= 0), by a factor in [0, 1] |
| PlayerFacts.IdleGroundScales | Assets/Scripts/PlayerController.cs:269-292 | idle ground acceleration scales x and z by one factor in [0, 1] |
| PlayerFacts.NoWishWithinCap | Assets/Scripts/PlayerController.cs:269-321 | idle ground and air acceleration leave a velocity within `maxBunnySpeed` unchanged |
| PlayerFacts.BunnyHopKeepsSpeed | Assets/Scripts/PlayerController.cs:187-209 | landing with jump held and no input keeps the horizontal velocity exactly and jumps |
| PlayerFacts.ImpulseCarriesOver | Assets/Scripts/PlayerController.cs:375-379 | an impulse followed by an idle airborne frame keeps the impulse's horizontal velocity and one jump used |
| PlayerFacts.DashingTick | Assets/Scripts/PlayerController.cs:155-162 | while dashing only the dash runs: grounding and jumps kept, dash countdown and dash displacement |
| PlayerFacts.DashRun | Assets/Scripts/PlayerController.cs:349-365 | a dash driven frame by frame takes at most one frame per `dt` given |
| PlayerFacts.DashRunTiming | Assets/Scripts/PlayerController.cs:349-365 | a dash ends on the first frame its elapsed time reaches `dashTimeRemaining`; it moved `dir*dashSpeed*elapsed` and ends with half dash speed and vy = -2 |
| PlayerFacts.DieIdempotent | Assets/Scripts/PlayerController.cs:403-409 | dying twice notifies the game manager once |
| PlayerFacts.DeadPlayerFrozen | Assets/Scripts/PlayerController.cs:84-93 | a dead player's frame is a no-op; respawn revives it at rest |
| Railgun.CanFire | Assets/Scripts/Railgun.cs:36 | the gun may fire once `cooldown` has passed since the last shot; its meaning is pinned down by `Railgun.CooldownRemaining` and `Railgun.ReadyAfterCooldown` |
| Railgun.CooldownRemaining | Assets/Scripts/Railgun.cs:37 | remaining cooldown is non-negative, zero exactly when the gun can fire, and at most `cooldown` after a shot |
| Railgun.CooldownPercent | Assets/Scripts/Railgun.cs:38 | the cooldown display lies in [0, 1] after a shot and is 1 exactly when the gun can fire |
| Railgun.HeightFactor | Assets/Scripts/Railgun.cs:132-134 | the height falloff lies in [0, 1], is 1 on the ground and 0 from `maxEffectiveHeight` up |
| Railgun.HeightFactorNonIncreasing | Assets/Scripts/Railgun.cs:132-134 | the height falloff never grows with height |
| Player.WasJumpPressedRecently | Assets/Scripts/PlayerController.cs:398-401 | jump counts as pressed recently when the last press is at most `railJumpWindow` (0.15 s) old; stated through `Railgun.ComboWindow` |
| Railgun.ComboMultiplier | Assets/Scripts/Railgun.cs:137 | `jumpComboBonus` after a recent jump press, 1 otherwise; stated through `Railgun.ComboWindow` |
| Railgun.ComboWindow | Assets/Scripts/PlayerController.cs:398-401 | the combo bonus applies exactly when the last jump press is at most `JumpComboWindow` (0.15 s) old, and the multiplier is 1 otherwise |
| Railgun.JumpAndShootCombo | Assets/Scripts/Railgun.cs:137 | a jump press earns the combo bonus for a shot that reads the player after the press was stamped (the player's `Update` running before the railgun's in that frame) |
| Railgun.RawUpForce | Assets/Scripts/Railgun.cs:140 | the uncapped up force is `railJumpBaseUpForce*heightFactor*combo`, non-negative for non-negative inputs |
| Railgun.UpForce | Assets/Scripts/Railgun.cs:143-150 | the up force is capped at three jump forces; when not rising it is exactly the capped force; when rising it tops the upward speed up to the capped force, or is 0 if the player already rises that fast (no stacking) |
| Railgun.RailUpForce | Assets/Scripts/Railgun.cs:132-150 | after the vertical push the upward speed never exceeds the larger of the current one and three jump forces |
| Railgun.PushDirection | Assets/Scripts/Railgun.cs:153 | the push points away from the hit (parallel, non-negative dot product) and is a unit vector when the distance is not negligible |
| Railgun.RailJumpImpulse | Assets/Scripts/Railgun.cs:152-154 | apart from the vertical `RailUpForce`, the impulse is parallel to the line from the hit to the player, points towards the player for a non-negative `railJumpForce`, has length `railJumpForce` under an exact magnitude, and is purely vertical for a hit at the player's own position |
| Railgun.Fire | Assets/Scripts/Railgun.cs:93-162 | a shot records the time; it kills exactly the enemy hit; it rail-jumps exactly when it hit within `railJumpRadius` of the player |
| Railgun.TryFire | Assets/Scripts/Railgun.cs:86-91 | a shot goes off exactly when the gun can fire; otherwise nothing changes |
| Railgun.Trigger | Assets/Scripts/Railgun.cs:70-84 | no shot while paused, while the holder is dead or without a click |
| Railgun.NoDoubleShot | Assets/Scripts/Railgun.cs:93-95 | with a positive cooldown a second shot at the same instant never goes off |
| Railgun.ReadyAfterCooldown | Assets/Scripts/Railgun.cs:36 | after a shot the gun can fire again exactly from `now + cooldown` |
| Railgun.UpForceBounds | Assets/Scripts/Railgun.cs:132-150 | for valid tuning the rail-jump up force lies in [0, 3*jumpForce] |
| Railgun.GroundedComboUpForce | Assets/Scripts/Railgun.cs:132-149 | a shot from the ground while not rising, with a recent jump press, pushes up by `min(railJumpBaseUpForce*jumpComboBonus, 3*jumpForce)` |
| Railgun.HighShotNoLift | Assets/Scripts/Railgun.cs:132-149 | at or above `maxEffectiveHeight` a player who is not rising gets `min(0, 3*jumpForce)`, which is 0 for a non-negative jump force |
| Railgun.UpForceNonIncreasingInHeight | Assets/Scripts/Railgun.cs:132-149 | for valid tuning, a larger distance to the ground never gives a larger vertical push |
| Railgun.UpForceMonotone | Assets/Scripts/Railgun.cs:143-149 | the cap and the anti-stacking floor never turn a larger raw push into a smaller one |
| Enemy.Spawned | Assets/Scripts/Enemy.cs:37-44 | a new bot is alive, has never attacked, and changes strafe one interval from now |
| Enemy.UpdateStrafe | Assets/Scripts/Enemy.cs:112-117 | strafe is kept before `nextStrafeChange`; after it the direction is redrawn in [-1, 1] and the next change is one interval ± 0.5 away |
| Enemy.StrafeRedrawMovesOn | Assets/Scripts/Enemy.cs:112-117 | a redraw moves the next change past now, so a second update at the same instant keeps the new strafe |
| Enemy.RadialMove | Assets/Scripts/Enemy.cs:119-133 | back away below `minDistanceToPlayer`, close in above `maxDistanceToPlayer`, nothing in between |
| Enemy.StrafeMove | Assets/Scripts/Enemy.cs:135-137 | the strafe move is `cross(up, toPlayer)*strafeDirection*strafeSpeed`, hence level and perpendicular to the direction to the player |
| Enemy.AlignedPush | Assets/Scripts/Enemy.cs:123-132 | moving along a direction aligned with the line to the player at a non-negative speed closes in, moving against it backs away |
| Enemy.RadialPointsIntoBand | Assets/Scripts/Enemy.cs:119-133 | the radial move points away from the player when too close and toward it when too far |
| Enemy.MoveVelocity | Assets/Scripts/Enemy.cs:110-149 | horizontal velocity is radial plus strafe, perpendicular to the player inside the band; y is -9.8 with a controller |
| Enemy.AimPoint | Assets/Scripts/Enemy.cs:168-179 | the aim is the player's chest on a hit roll (within `accuracy`); on a miss it is the chest offset by `8 * unitOffset`, at most 8 away |
| Enemy.Resolve | Assets/Scripts/Enemy.cs:184-211 | the player dies iff the ray hit the player's body; another bot dies iff friendly fire is on and the hit is a different bot |
| Enemy.NeverSelfKill | Assets/Scripts/Enemy.cs:204 | a bot's shot never kills itself |
| Enemy.NoFriendlyFireNoBotDeaths | Assets/Scripts/Enemy.cs:196 | without friendly fire no bot dies from a bot's shot |
| Enemy.CanAttack | Assets/Scripts/Enemy.cs:35 | a bot may attack once `attackCooldown` has passed since its last attack; its meaning is pinned down by `Enemy.AttacksSpaced` and `Enemy.RespawnDisarms` |
| Enemy.Attack | Assets/Scripts/Enemy.cs:164-215 | an attack records its time, aims by `AimPoint` and has exactly one outcome |
| Enemy.Update | Assets/Scripts/Enemy.cs:76-96 | a dead, playerless or out-of-range bot does nothing; otherwise it redraws its strafe, is displaced by `MoveVelocity*dt` of the strafed bot, and attacks (as `Attack` of the strafed bot) iff in range, cooled down and in sight |
| Enemy.AttacksSpaced | Assets/Scripts/Enemy.cs:35 | with a positive cooldown a bot never attacks twice at the same instant |
| Enemy.Die | Assets/Scripts/Enemy.cs:239-249 | the first death marks dead and notifies the spawn manager; a dead bot's death notifies nobody |
| Enemy.DieIdempotent | Assets/Scripts/Enemy.cs:239-249 | dying twice notifies once |
| Enemy.DeadBotIdle | Assets/Scripts/Enemy.cs:78 | a dead bot's update changes nothing |
| Enemy.Respawn | Assets/Scripts/Enemy.cs:251-256 | respawn revives at the position and restarts the attack cooldown |
| Enemy.RespawnDisarms | Assets/Scripts/Enemy.cs:251-256 | a respawned bot cannot attack at once, and can exactly one cooldown later |
| Spawning.Fresh | Assets/Scripts/SpawnManager.cs:19-22 | a new manager has no bots, no kills and nothing scheduled |
| Spawning.ValidPoints | Assets/Scripts/SpawnManager.cs:102-110 | the valid list holds exactly the spawn points far enough from the player (all of them without a player) |
| Spawning.FallbackFrom | Assets/Scripts/SpawnManager.cs:130-141 | the fallback settles on the first far-enough draw, or gives up after 10 redraws |
| Spawning.FallbackPosition | Assets/Scripts/SpawnManager.cs:122-144 | the source's redraw loop computes the same draw as `FallbackFrom`; the point has y = 1 and lies in the arena square when the draws do |
| Spawning.SpawnPosition | Assets/Scripts/SpawnManager.cs:97-145 | with spawn points the result is one of them, and a far-enough one whenever one exists; without, the fallback draw |
| Spawning.FallbackSpawnInArena | Assets/Scripts/SpawnManager.cs:122-144 | without spawn points a bot appears at y = 1 inside [-20, 20]², far enough unless all redraws were used |
| Spawning.SpawnEnemy | Assets/Scripts/SpawnManager.cs:55-63 | nothing at the cap; otherwise exactly one bot with a fresh id; the cap and id bookkeeping are kept |
| Spawning.SpawnInitialEnemies | Assets/Scripts/SpawnManager.cs:47-53 | the active count ends at `max(count, maxEnemies)`, so exactly `maxEnemies` from empty, with consecutive fresh ids |
| Spawning.RemoveFirst | Assets/Scripts/SpawnManager.cs:149 | `List.Remove` drops one occurrence: the multiset loses exactly that id |
| Spawning.RemoveFirstKeepsOthers | Assets/Scripts/SpawnManager.cs:149 | removal leaves every other id's membership as it was |
| Spawning.RemoveFirstDistinct | Assets/Scripts/SpawnManager.cs:149 | removing from a duplicate-free list removes the id completely |
| Spawning.OnEnemyDied | Assets/Scripts/SpawnManager.cs:147-154 | the bot leaves the active list, the kill count rises by exactly one, exactly one respawn is scheduled `respawnDelay` later |
| Spawning.FireRespawnTimer | Assets/Scripts/SpawnManager.cs:153 | a due respawn is taken off the list and runs `SpawnEnemy`; otherwise nothing happens |
| Spawning.ClearanceFrom | Assets/Scripts/SpawnManager.cs:166-177 | the running minimum is the least distance to a live bot, or the start value; destroyed bots are skipped |
| Spawning.ClearanceWithoutBots | Assets/Scripts/SpawnManager.cs:166-177 | without live bots the clearance stays `float.MaxValue` |
| Spawning.FirstBest | Assets/Scripts/SpawnManager.cs:161-185 | the strict `>` scan starting from 0 finds the earliest maximum, or index 0 when nothing beats 0 |
| Spawning.GetPlayerSpawnPosition | Assets/Scripts/SpawnManager.cs:156-190 | the point farthest from its nearest live bot, earliest on ties, the first point without bots, (0, 1, 0) without points |
| Spawning.AddSpawnPoint | Assets/Scripts/SpawnManager.cs:192-197 | one point appended, earlier points unchanged and in order |
| Game.OnEnemyKilled | Assets/Scripts/GameManager.cs:46-50 | kills rise by exactly one; deaths and the schedule are unchanged |
| Game.OnPlayerDeath | Assets/Scripts/GameManager.cs:52-59 | deaths rise by exactly one, kills unchanged, exactly one respawn scheduled `respawnDelay` later |
| Game.RespawnPlayer | Assets/Scripts/GameManager.cs:61-68 | nothing without a player; otherwise alive and at rest at the chosen point, or (0, 1, 0) without a spawn manager |
| Game.FireRespawnTimer | Assets/Scripts/GameManager.cs:58 | a due respawn is taken off the list and the player respawns; counters untouched |
| Game.ReplayCounts | Assets/Scripts/GameManager.cs:8-9 | after any history the counters equal their start plus the kill and death events, and scheduled respawns never outnumber deaths |
| Game.CountersNeverDecrease | Assets/Scripts/GameManager.cs:46-59 | no history lowers a counter |
| World.Opening | Assets/Scripts/SpawnManager.cs:19-22 | before `Start` there are no bots and no score, and the player is alive at its start position |
| World.InitialSpawns | Assets/Scripts/SpawnManager.cs:47-53 | the initial spawn rounds leave the score, the player and the gun untouched |
| World.InitialSpawnsConsistent | Assets/Scripts/SpawnManager.cs:47-63 | the initial rounds fill the arena to exactly `maxEnemies` live bots and keep the bookkeeping invariant |
| World.Begin | Assets/Scripts/SpawnManager.cs:36-45 | a match starts with a zero score, the gun never fired and the player alive at its start position, after the initial spawns |
| World.BeginConsistent | Assets/Scripts/SpawnManager.cs:36-53 | the start of a match satisfies the bookkeeping invariant and has exactly `maxEnemies` live bots (none for a negative setting) |
| World.KillBot | Assets/Scripts/Railgun.cs:119-123 | killing a bot marks it dead and credits one kill; the spawn manager is told only if the bot was alive |
| World.KillPlayer | Assets/Scripts/Enemy.cs:189-196 | a shot player is dead; the game manager counts a death only if it was alive |
| World.KillBotConsistent | Assets/Scripts/Enemy.cs:239-249 | killing a bot keeps the active list equal to the live bots |
| World.HolderOf | Assets/Scripts/Railgun.cs:132-143 | the rail jump reads the player's own `jumpForce`, and a distance to the ground of 0 while the player is grounded |
| World.PressBeforeShotEarnsCombo | Assets/Scripts/PlayerController.cs:131-134 | a player frame with a jump press, followed by a trigger pull at the same instant, gives the shot the combo bonus |
| World.ShotBeforePressMissesCombo | Assets/Scripts/Railgun.cs:137 | a trigger pull handled before the player's frame sees only earlier presses, so with the last one older than the combo window there is no combo |
| World.ApplyShot | Assets/Scripts/Railgun.cs:114-156 | a shot credits exactly one kill per known enemy hit, kills only that bot, and adds the rail-jump impulse to the velocity |
| World.ApplyShotConsistent | Assets/Scripts/Railgun.cs:114-156 | a shot keeps the bookkeeping invariant |
| World.IdleTriggerChangesNothing | Assets/Scripts/Railgun.cs:70-91 | a trigger pull that does not fire leaves the whole match unchanged |
| World.DeadBotHitStillCounts | Assets/Scripts/Railgun.cs:114-123 | hitting an already-dead bot credits a kill, but the spawn manager counts nothing and schedules nothing |
| World.LiveBotKillCountsOnce | Assets/Scripts/Railgun.cs:114-123 | killing a live bot raises both kill counts by one, removes it from the active list and schedules one respawn |
| World.BotStep | Assets/Scripts/Enemy.cs:184-211 | a bot frame never lowers the counters and never adds or removes bots; without an attack only the bot changes; a player hit kills the player and counts one death if it was alive; a friendly-fire hit kills the other bot and credits one kill; a miss leaves score and player alone |
| World.BotView | Assets/Scripts/Enemy.cs:39 | a bot sees the player at the player's own position; nothing else in its frame changes |
| World.BotShotKillsPlayer | Assets/Scripts/Enemy.cs:76-96 | a bot that is alive, has the player within detection and attack range, is cooled down and sees the player, and hits a living player with a controller, kills it: one more death and pending respawn, no kill |
| World.FriendlyFireCredits | Assets/Scripts/Enemy.cs:197-208 | with friendly fire on, such a bot hitting another bot kills it and credits the player with one kill; deaths and the player are untouched |
| World.BotStepSpares | Assets/Scripts/Enemy.cs:201-208 | a dead bot's frame changes nothing, and a live bot's own shot never kills it |
| World.BotStepConsistent | Assets/Scripts/Enemy.cs:184-211 | a bot frame keeps the bookkeeping invariant |
| World.AddBot | Assets/Scripts/SpawnManager.cs:55-63 | a spawned bot enters the match in its `Start` state under its fresh id |
| World.SpawnConsistent | Assets/Scripts/SpawnManager.cs:55-63 | spawning (directly or from the timer) keeps the invariant, including the cap |
| World.Step | Assets/Scripts/GameManager.cs:46-68 | no event lowers the counters |
| World.StepConsistent | Assets/Scripts/SpawnManager.cs:55-63 | every event keeps the bookkeeping invariant |
| World.PlayerFrameConsistent | Assets/Scripts/PlayerController.cs:84-93 | a player frame keeps the invariant |
| World.RespawnConsistent | Assets/Scripts/GameManager.cs:61-68 | the player respawn timer keeps the invariant and always finds the player |
| World.RunConsistent | Assets/Scripts/SpawnManager.cs:55-63 | over any history the invariant holds (spawn cap, active list = live bots, kills never behind the spawn manager's count) and the counters never decrease |

## Left out

- Floating point: all quantities are `real`, so no rounding or overflow is modelled.
- Magnitude: `Vector3.magnitude` and `Vector3.Distance` are an oracle `mag`. Length facts hold under `IsExact(mag)`, because Dafny's reals have no square root.
- Engine queries are parameters:
  - `CharacterController.isGrounded`;
  - `transform.right` and `forward`;
  - the railgun and bot raycasts, including `CanSeePlayer`;
  - `GetDistanceToGround`;
  - `Random.value`, `Random.Range` and `insideUnitSphere`.
- The Player-tag test on a bot's hit is a target `PlayerBody(hasController)`.
- `Invoke` timers are lists of due times, fired by explicit timer events. Two timers due at once fire one event at a time.
- `CharacterController.Move` and collisions: displacements are returned but not integrated. In `World`, positions change only through spawn, teleport and respawn.
- Presentation is left out: mouse look, camera, bot `LookAtPlayer` rotation (`Slerp`), beams, audio, materials, UI, menus, settings and arena generation. Nothing in the rules reads these.
- `Destroy(gameObject, 0.1f)` is left out. A dead bot stays in the world as a dead entry. A ray hit on it still credits a kill, as in the source (`World.DeadBotHitStillCounts`).
- Singletons (`Awake`, `Instance`) are left out. A missing spawn manager is an absent spawn choice (`Game.RespawnPlayer`).
- The player's shot, bot frames and timers are separate events in `World`. Frame ordering between scripts is whatever sequence of events is given. Which order a frame takes decides, for example, whether a jump pressed in the shot's frame earns the combo (`World.PressBeforeShotEarnsCombo`, `World.ShotBeforePressMissesCombo`).
- Player.HandleInput: the early return when no keyboard or mouse is connected is not modelled; every frame reads a fresh `Intent`. Without devices the source keeps last frame's move, sprint and jump inputs for `HandleMovement` and stamps no press times. A caller feeding the stale `Intent` instead would re-stamp the press times, so that case has no counterpart here.
- `World.PullTrigger`: has no row because it only composes `Railgun.Trigger` with `World.ApplyShot`, whose contracts state the behaviour.
- Player.Update, Player.HandleMovement, Player.DashSpeed, Player.HandleDash, Railgun.CooldownPercent, Railgun.HeightFactor, Railgun.RailUpForce, Railgun.RailJumpImpulse, Railgun.Fire, Railgun.TryFire and Railgun.Trigger: require a non-zero `dashDuration`, `cooldown` or `maxEffectiveHeight`, because the source divides by them. Unity would produce an infinity or NaN.
- Movement.GroundAccelerate, Movement.AirAccelerate: the `maxBunnySpeed` bound is stated for frames that accelerate. A frame that does not accelerate leaves the velocity as it was, faster or not, as the source does.
- PlayerFacts.IdleGroundScales: the composition of friction followed by idle acceleration over a whole grounded frame is stated through `PlayerFacts.GroundedTick` and this lemma separately, not as one closed form.
- Spawning.GetPlayerSpawnPosition: the choice is stated as an arg-max over the clearances. It is not linked to `Game.RespawnPlayer` inside `World`, where the chosen point is an event parameter.

=== FILE: base.dfy ===
/** Small shared vocabulary: an optional value and the scalar helpers of the
    engine's math library (`Mathf.Min`, `Mathf.Max`, `Mathf.Clamp01`). */
module Base {

  /** A value that may be absent: a Unity reference that may be null, a ray
      that may hit nothing. */
  datatype Option<+T> = None | Some(value: T)

  /** Identifies one spawned enemy object. */
  type EnemyId = nat

  /** `Mathf.Min(a, b)`: `a < b ? a : b`. */
  function Min(a: real, b: real): (r: real)
    ensures r <= a && r <= b
    ensures r == a || r == b
  {
    if a < b then a else b
  }

  /** `Mathf.Max(a, b)`: `a > b ? a : b`. */
  function Max(a: real, b: real): (r: real)
    ensures a <= r && b <= r
    ensures r == a || r == b
  {
    if a > b then a else b
  }

  /** `Mathf.Clamp01(v)`: below 0 gives 0, above 1 gives 1. */
  function Clamp01(v: real): (r: real)
    ensures 0.0 <= r <= 1.0
    ensures 0.0 <= v <= 1.0 ==> r == v
    ensures v <= 0.0 ==> r == 0.0
    ensures v >= 1.0 ==> r == 1.0
  {
    if v < 0.0 then 0.0 else if v > 1.0 then 1.0 else v
  }

  /** `Mathf.Clamp01` is monotone. */
  lemma Clamp01Monotone(a: real, b: real)
    requires a <= b
    ensures Clamp01(a) <= Clamp01(b)
  {
  }

  // Small facts of real arithmetic that the solver needs spelled out.

  lemma MulNonNeg(a: real, b: real)
    requires 0.0 <= a && 0.0 <= b
    ensures 0.0 <= a * b
  {
  }

  lemma MulLeRight(a: real, b: real, c: real)
    requires a <= b && 0.0 <= c
    ensures a * c <= b * c
  {
  }

  /** A factor in [0, 1] keeps the sign of `a` and does not grow its
      square: `c == a * k` has `c * a >= 0` and `c * c <= a * a`. */
  lemma ShrinkSquare(a: real, k: real, c: real)
    requires 0.0 <= k <= 1.0 && c == a * k
    ensures c * a >= 0.0
    ensures c * c <= a * a
  {
    var a2 := a * a;
    assert a2 >= 0.0;
    assert c * a == k * a2;
    MulNonNeg(k, a2);
    MulLeRight(k, 1.0, k);
    assert k * k <= 1.0;
    assert c * c == (k * k) * a2;
    MulLeRight(k * k, 1.0, a2);
  }

  /** A factor in [0, 1] moves `d` towards zero: `k * d <= max(d, 0)`. */
  lemma ShrinkTowardZero(d: real, k: real, c: real)
    requires 0.0 <= k <= 1.0 && c == k * d
    ensures d >= 0.0 ==> c <= d
    ensures d < 0.0 ==> c <= 0.0
  {
    if d >= 0.0 {
      MulLeRight(k, 1.0, d);
    } else {
      MulLeRight(0.0, k, -d);
    }
  }

  /** The product of two numbers in [0, 1] is in [0, 1]. */
  lemma UnitProduct(a: real, b: real, c: real)
    requires 0.0 <= a <= 1.0 && 0.0 <= b <= 1.0 && c == a * b
    ensures 0.0 <= c <= 1.0
  {
    MulNonNeg(a, b);
    MulLeRight(b, 1.0, a);
    assert c <= a;
  }

  /** Squaring is monotone on the non-negative reals. */
  lemma SquareMonotone(a: real, b: real)
    requires 0.0 <= a <= b
    ensures a * a <= b * b
  {
    MulLeRight(a, b, a);
    MulLeRight(a, b, b);
  }

  /** Dividing by a positive number keeps the order. */
  lemma DivMonotone(a: real, b: real, m: real)
    requires a <= b && m > 0.0
    ensures a / m <= b / m
  {
    var qa := a / m;
    var qb := b / m;
    assert (qb - qa) * m == b - a;
    MulNegative(qb - qa, m);
  }

  lemma MulNegative(x: real, m: real)
    requires m > 0.0
    ensures x < 0.0 ==> x * m < 0.0
  {
  }

  /** `0 <= a < b` gives a quotient in [0, 1). */
  lemma DivBelowOne(a: real, b: real)
    requires 0.0 <= a < b
    ensures 0.0 <= a / b < 1.0
  {
    var q := a / b;
    assert q * b == a;
    if q >= 1.0 {
      MulLeRight(1.0, q, b);
    }
    if q < 0.0 {
      MulLeRight(q, 0.0, b);
    }
  }

  /** `x * (1 / s) * m == x * (m / s)`. */
  lemma DivScale(x: real, m: real, s: real)
    requires s != 0.0
    ensures (x * (1.0 / s)) * m == x * (m / s)
  {
  }
}

=== FILE: enemy.dfy ===
/** An arena bot (`Enemy`): it notices the player within a detection range,
    keeps a preferred distance band while strafing sideways, and shoots a
    very inaccurate hitscan beam that can also hit other bots.

    Random draws, the line-of-sight ray, the attack ray and whether the bot
    has a `CharacterController` are parameters. */
module Enemy {
  import opened Base
  import opened Vectors

  datatype EnemyConfig = EnemyConfig(
    moveSpeed: real,
    rotationSpeed: real,
    attackRange: real,
    attackCooldown: real,
    accuracy: real,
    detectionRange: real,
    friendlyFire: bool,
    strafeSpeed: real,
    strafeChangeInterval: real,
    minDistanceToPlayer: real,
    maxDistanceToPlayer: real)

  /** The field initialisers of `Enemy`. */
  const Defaults: EnemyConfig :=
    EnemyConfig(5.0, 4.0, 25.0, 4.0, 0.08, 40.0, true, 5.0, 1.5, 8.0, 25.0)

  /** `lastAttackTime` before the first attack. */
  const NeverAttacked: real := -999.0

  /** The half-width of the random jitter added to the strafe interval. */
  const StrafeJitter: real := 0.5

  /** The constant vertical speed a bot with a controller moves with. */
  const EnemyGravity: real := -9.8

  /** Shots leave from, and aim at, this height above the feet. */
  const EyeHeight: real := 0.5

  /** A missed shot's aim is displaced by up to this distance. */
  const MissRadius: real := 8.0

  datatype EnemyState = EnemyState(
    id: EnemyId,
    position: Vec3,
    isDead: bool,
    lastAttackTime: real,
    strafeDirection: real,
    nextStrafeChange: real)

  /** A bot as `Start` leaves it: first strafe change one interval away. */
  function Spawned(cfg: EnemyConfig, id: EnemyId, position: Vec3, now: real): (e: EnemyState)
    ensures e.id == id && e.position == position && !e.isDead
    ensures e.lastAttackTime == NeverAttacked && e.strafeDirection == 0.0
    ensures e.nextStrafeChange == now + cfg.strafeChangeInterval
  {
    EnemyState(id, position, false, NeverAttacked, 0.0, now + cfg.strafeChangeInterval)
  }

  /** `Vector3.Distance(bot, player)`. */
  function DistanceTo(e: EnemyState, player: Vec3, mag: Magnitude): real {
    mag(Sub(e.position, player))
  }

  /** The `Update` gate: alive, a player exists and is within detection range. */
  predicate Engaged(cfg: EnemyConfig, e: EnemyState, player: Option<Vec3>, mag: Magnitude) {
    !e.isDead && player.Some? && DistanceTo(e, player.value, mag) <= cfg.detectionRange
  }

  /** `CanAttack`: the attack cooldown has elapsed. */
  predicate CanAttack(cfg: EnemyConfig, e: EnemyState, now: real) {
    now >= e.lastAttackTime + cfg.attackCooldown
  }

  // ---------------------------------------------------------------- movement

  /** The two draws of a strafe change: `Random.Range(-1, 1)` for the
      direction and `Random.Range(-0.5, 0.5)` for the interval jitter. */
  datatype StrafeDraw = StrafeDraw(direction: real, jitter: real)

  predicate DrawInRange(d: StrafeDraw) {
    -1.0 <= d.direction <= 1.0 && -StrafeJitter <= d.jitter <= StrafeJitter
  }

  /** The strafe update at the start of `HandleMovement`: once
      `nextStrafeChange` is reached the direction is redrawn and the next
      change is one interval (plus jitter) away; before that nothing changes. */
  function UpdateStrafe(cfg: EnemyConfig, e: EnemyState, now: real, draw: StrafeDraw): (r: EnemyState)
    ensures now < e.nextStrafeChange ==> r == e
    ensures now >= e.nextStrafeChange ==>
      r == e.(strafeDirection := draw.direction,
              nextStrafeChange := now + cfg.strafeChangeInterval + draw.jitter)
    ensures now >= e.nextStrafeChange && DrawInRange(draw) ==>
      && -1.0 <= r.strafeDirection <= 1.0
      && now + cfg.strafeChangeInterval - StrafeJitter <= r.nextStrafeChange
      && r.nextStrafeChange <= now + cfg.strafeChangeInterval + StrafeJitter
  {
    if now >= e.nextStrafeChange then
      e.(strafeDirection := draw.direction,
         nextStrafeChange := now + cfg.strafeChangeInterval + draw.jitter)
    else e
  }

  /** With an interval longer than the jitter, a redraw always schedules the
      next one strictly in the future, so a bot redraws at most once per
      instant. */
  lemma StrafeRedrawMovesOn(cfg: EnemyConfig, e: EnemyState, now: real, d1: StrafeDraw, d2: StrafeDraw)
    requires cfg.strafeChangeInterval > StrafeJitter && DrawInRange(d1)
    ensures var once := UpdateStrafe(cfg, e, now, d1);
      once.nextStrafeChange > now || once == e
    ensures var once := UpdateStrafe(cfg, e, now, d1);
      now >= e.nextStrafeChange ==> UpdateStrafe(cfg, once, now, d2) == once
  {
  }

  /** The radial part of the movement: back away below the preferred band,
      close in above it, nothing inside it. */
  function RadialMove(cfg: EnemyConfig, toPlayer: Vec3, distance: real): (r: Vec3)
    ensures distance < cfg.minDistanceToPlayer ==> r == Sub(Zero, Scale(toPlayer, cfg.moveSpeed))
    ensures cfg.minDistanceToPlayer <= distance <= cfg.maxDistanceToPlayer ==> r == Zero
    ensures cfg.minDistanceToPlayer <= distance && cfg.maxDistanceToPlayer < distance ==>
      r == Scale(toPlayer, cfg.moveSpeed)
  {
    if distance < cfg.minDistanceToPlayer then Sub(Zero, Scale(toPlayer, cfg.moveSpeed))
    else if distance > cfg.maxDistanceToPlayer then Scale(toPlayer, cfg.moveSpeed)
    else Zero
  }

  /** The strafe part: `cross(up, toPlayer) * strafeDirection * strafeSpeed`. */
  function StrafeMove(cfg: EnemyConfig, toPlayer: Vec3, strafeDirection: real): (r: Vec3)
    ensures r == Scale(Cross(Up, toPlayer), strafeDirection * cfg.strafeSpeed)
    ensures r.y == 0.0
    ensures Dot(r, toPlayer) == 0.0
  {
    var side := Cross(Up, toPlayer);
    assert Dot(side, toPlayer) == 0.0;
    var r := Scale(Scale(side, strafeDirection), cfg.strafeSpeed);
    assert r == Scale(side, strafeDirection * cfg.strafeSpeed);
    DotScale(side, strafeDirection * cfg.strafeSpeed, toPlayer);
    r
  }

  /** The radial part points at the player when the bot is too far and away
      from it when too close (for a non-negative speed). */
  lemma RadialPointsIntoBand(cfg: EnemyConfig, position: Vec3, player: Vec3, distance: real, mag: Magnitude)
    requires cfg.moveSpeed >= 0.0
    ensures var away := Sub(player, position);
      var toPlayer := Normalized(mag, away);
      var r := RadialMove(cfg, toPlayer, distance);
      && (distance < cfg.minDistanceToPlayer ==> Dot(r, away) <= 0.0)
      && (cfg.minDistanceToPlayer <= distance && cfg.maxDistanceToPlayer < distance ==>
            Dot(r, away) >= 0.0)
  {
    var away := Sub(player, position);
    var toPlayer := Normalized(mag, away);
    assert Dot(toPlayer, away) >= 0.0;
    AlignedPush(toPlayer, away, cfg.moveSpeed);
  }

  /** Scaling a direction that makes a non-negative dot product with `away`
      by a non-negative speed keeps the sign; negating it flips the sign. */
  lemma AlignedPush(dir: Vec3, away: Vec3, speed: real)
    requires Dot(dir, away) >= 0.0 && speed >= 0.0
    ensures Dot(Scale(dir, speed), away) >= 0.0
    ensures Dot(Sub(Zero, Scale(dir, speed)), away) <= 0.0
  {
    var d := Dot(dir, away);
    DotScale(dir, speed, away);
    MulNonNeg(speed, d);
    assert Dot(Sub(Zero, Scale(dir, speed)), away) == -Dot(Scale(dir, speed), away);
  }

  /** `HandleMovement`'s velocity: radial plus strafe, and with a controller
      the vertical part replaced by constant gravity. Inside the preferred
      band the bot only strafes: its horizontal velocity is perpendicular to
      the direction to the player. */
  function MoveVelocity(cfg: EnemyConfig, e: EnemyState, player: Vec3, distance: real,
                        hasController: bool, mag: Magnitude): (v: Vec3)
    ensures var toPlayer := Normalized(mag, Sub(player, e.position));
      && Flat(v) == Flat(Add(RadialMove(cfg, toPlayer, distance), StrafeMove(cfg, toPlayer, e.strafeDirection)))
      && (cfg.minDistanceToPlayer <= distance <= cfg.maxDistanceToPlayer ==> Dot(Flat(v), toPlayer) == 0.0)
    ensures hasController ==> v.y == EnemyGravity
    ensures !hasController ==> v.y == RadialMove(cfg, Normalized(mag, Sub(player, e.position)), distance).y
  {
    var toPlayer := Normalized(mag, Sub(player, e.position));
    var planned := Add(RadialMove(cfg, toPlayer, distance), StrafeMove(cfg, toPlayer, e.strafeDirection));
    if hasController then planned.(y := EnemyGravity) else planned
  }

  // ---------------------------------------------------------------- attacking

  /** What a bot's attack ray hit first. */
  datatype Target =
    | PlayerBody(hasController: bool)   // a collider tagged "Player"
    | Bot(id: EnemyId)                  // a collider belonging to an `Enemy`
    | Scenery

  /** Who dies because of one attack. */
  datatype Casualty = NoCasualty | PlayerDies | BotDies(id: EnemyId)

  /** The two draws of an attack: `Random.value` against `accuracy`, and the
      `Random.insideUnitSphere` point scaled into the miss offset. */
  datatype AimDraw = AimDraw(roll: real, unitOffset: Vec3)

  /** The point the shot aims at: the player's chest on a hit roll,
      otherwise displaced by `unitOffset * 8`. */
  function AimPoint(cfg: EnemyConfig, player: Vec3, draw: AimDraw): (aim: Vec3)
    ensures var chest := Add(player, Scale(Up, EyeHeight));
      && (draw.roll <= cfg.accuracy ==> aim == chest)
      && (draw.roll > cfg.accuracy ==> Sub(aim, chest) == Scale(draw.unitOffset, MissRadius))
      && (SqMag(draw.unitOffset) <= 1.0 ==> SqMag(Sub(aim, chest)) <= MissRadius * MissRadius)
  {
    var chest := Add(player, Scale(Up, EyeHeight));
    var willHit := draw.roll <= cfg.accuracy;
    SqMagScale(draw.unitOffset, MissRadius);
    if willHit then
      assert Sub(chest, chest) == Zero;
      chest
    else
      var aim := Add(chest, Scale(draw.unitOffset, MissRadius));
      assert Sub(aim, chest) == Scale(draw.unitOffset, MissRadius);
      aim
  }

  /** The direction of the attack ray, from the bot's eye to the aim point. */
  function ShotDirection(e: EnemyState, aim: Vec3, mag: Magnitude): Vec3 {
    Normalized(mag, Sub(aim, Add(e.position, Scale(Up, EyeHeight))))
  }

  /** Hit resolution: a player collider with a controller kills the player;
      with friendly fire on, another bot dies; nothing else dies. */
  function Resolve(cfg: EnemyConfig, e: EnemyState, hit: Option<Target>): (c: Casualty)
    ensures c == PlayerDies <==> hit == Some(PlayerBody(true))
    ensures c.BotDies? <==> cfg.friendlyFire && hit.Some? && hit.value.Bot? && hit.value.id != e.id
    ensures c.BotDies? ==> hit == Some(Bot(c.id)) && c.id != e.id
  {
    match hit
    case None => NoCasualty
    case Some(PlayerBody(hasController)) => if hasController then PlayerDies else NoCasualty
    case Some(Bot(id)) => if cfg.friendlyFire && id != e.id then BotDies(id) else NoCasualty
    case Some(Scenery) => NoCasualty
  }

  /** A bot never kills itself. */
  lemma NeverSelfKill(cfg: EnemyConfig, e: EnemyState, hit: Option<Target>)
    ensures Resolve(cfg, e, hit) != BotDies(e.id)
  {
  }

  /** Without friendly fire no bot ever dies from a bot's shot. */
  lemma NoFriendlyFireNoBotDeaths(cfg: EnemyConfig, e: EnemyState, hit: Option<Target>)
    requires !cfg.friendlyFire
    ensures !Resolve(cfg, e, hit).BotDies?
  {
  }

  /** The outcome of `Attack`: the bot (with its new `lastAttackTime`), where
      it aimed and who dies. */
  datatype AttackResult = AttackResult(state: EnemyState, aim: Vec3, casualty: Casualty)

  function Attack(cfg: EnemyConfig, e: EnemyState, now: real, player: Vec3, draw: AimDraw,
                  hit: Option<Target>): (r: AttackResult)
    ensures r.state == e.(lastAttackTime := now)
    ensures r.aim == AimPoint(cfg, player, draw)
    ensures r.casualty == Resolve(cfg, e, hit)
  {
    AttackResult(e.(lastAttackTime := now), AimPoint(cfg, player, draw), Resolve(cfg, e, hit))
  }

  /** Everything one `Update` call needs from outside: the clock, the
      player's position (if there is a player), the random draws and the
      engine's answers. */
  datatype EnemyFrame = EnemyFrame(
    now: real,
    dt: real,
    player: Option<Vec3>,
    hasController: bool,
    strafe: StrafeDraw,
    seesPlayer: bool,
    aim: AimDraw,
    attackHit: Option<Target>,
    mag: Magnitude)

  /** The outcome of one `Update`: the new bot, the displacement asked of
      the engine this frame, and the attack if one happened. */
  datatype EnemyTick = EnemyTick(state: EnemyState, move: Vec3, attack: Option<AttackResult>)

  /** `Update`: the gate, then the strafe update and movement, then an attack
      when the player is in range, the cooldown is over and it is in sight. */
  function Update(cfg: EnemyConfig, e: EnemyState, f: EnemyFrame): (r: EnemyTick)
    ensures !Engaged(cfg, e, f.player, f.mag) ==> r == EnemyTick(e, Zero, None)
    ensures r.attack.Some? <==>
      && Engaged(cfg, e, f.player, f.mag)
      && DistanceTo(e, f.player.value, f.mag) <= cfg.attackRange
      && CanAttack(cfg, e, f.now)
      && f.seesPlayer
    ensures r.attack.Some? ==> r.state == r.attack.value.state && r.state.lastAttackTime == f.now
    ensures r.attack.None? ==> r.state.lastAttackTime == e.lastAttackTime
    ensures Engaged(cfg, e, f.player, f.mag) ==>
      var strafed := UpdateStrafe(cfg, e, f.now, f.strafe);
      var distance := DistanceTo(e, f.player.value, f.mag);
      && r.move == Scale(MoveVelocity(cfg, strafed, f.player.value, distance, f.hasController, f.mag), f.dt)
      && (r.attack.Some? ==> r.attack == Some(Attack(cfg, strafed, f.now, f.player.value, f.aim, f.attackHit)))
      && (r.attack.None? ==> r.state == strafed)
    ensures r.state.id == e.id && r.state.position == e.position && r.state.isDead == e.isDead
  {
    if !Engaged(cfg, e, f.player, f.mag) then EnemyTick(e, Zero, None)
    else
      var player := f.player.value;
      var distance := DistanceTo(e, player, f.mag);
      var strafed := UpdateStrafe(cfg, e, f.now, f.strafe);
      var move := Scale(MoveVelocity(cfg, strafed, player, distance, f.hasController, f.mag), f.dt);
      if distance <= cfg.attackRange && CanAttack(cfg, strafed, f.now) && f.seesPlayer then
        var attack := Attack(cfg, strafed, f.now, player, f.aim, f.attackHit);
        EnemyTick(attack.state, move, Some(attack))
      else
        EnemyTick(strafed, move, None)
  }

  /** Attacks are spaced by at least `attackCooldown`: right after an attack
      (at the same instant) a bot cannot attack again when the cooldown is
      positive. */
  lemma AttacksSpaced(cfg: EnemyConfig, e: EnemyState, f: EnemyFrame, g: EnemyFrame)
    requires cfg.attackCooldown > 0.0 && g.now == f.now
    ensures Update(cfg, e, f).attack.Some? ==> Update(cfg, Update(cfg, e, f).state, g).attack.None?
  {
  }

  // ---------------------------------------------------------------- life cycle

  /** The result of `Die`: the bot and whether the spawn manager was told
      (`OnEnemyDied`). */
  datatype EnemyDeath = EnemyDeath(state: EnemyState, notified: bool)

  /** `Die`: the first call marks the bot dead and notifies the spawn
      manager; a dead bot's `Die` does nothing. */
  function Die(e: EnemyState): (r: EnemyDeath)
    ensures r.state.isDead
    ensures r.notified <==> !e.isDead
    ensures r.state == e.(isDead := true)
  {
    if e.isDead then EnemyDeath(e, false) else EnemyDeath(e.(isDead := true), true)
  }

  /** Dying twice notifies once. */
  lemma DieIdempotent(e: EnemyState)
    ensures Die(Die(e).state) == EnemyDeath(Die(e).state, false)
  {
  }

  /** A dead bot does nothing in `Update`. */
  lemma DeadBotIdle(cfg: EnemyConfig, e: EnemyState, f: EnemyFrame)
    ensures var dead := Die(e).state;
      Update(cfg, dead, f) == EnemyTick(dead, Zero, None)
  {
  }

  /** `Respawn`: alive again at `position`, and the attack cooldown restarts. */
  function Respawn(e: EnemyState, position: Vec3, now: real): (r: EnemyState)
    ensures !r.isDead && r.position == position && r.lastAttackTime == now
    ensures r == e.(isDead := false, position := position, lastAttackTime := now)
  {
    e.(isDead := false, position := position, lastAttackTime := now)
  }

  /** A respawned bot cannot attack at once when the cooldown is positive;
      it can again exactly one cooldown later. */
  lemma RespawnDisarms(cfg: EnemyConfig, e: EnemyState, position: Vec3, now: real, later: real)
    requires cfg.attackCooldown > 0.0
    ensures !CanAttack(cfg, Respawn(e, position, now), now)
    ensures CanAttack(cfg, Respawn(e, position, now), later) <==> later >= now + cfg.attackCooldown
  {
  }
}

=== FILE: game.dfy ===
/** The match score and the player's respawn (`GameManager`): kills and
    deaths only ever count up, every death schedules exactly one respawn,
    and a respawn puts the player at the chosen spawn point or at
    `Vector3.up`. The respawn timer (`Invoke`) is a list of due times. */
module Game {
  import opened Base
  import opened Vectors
  import opened Player

  /** The default `respawnDelay` of `GameManager`. */
  const RespawnDelay: real := 1.5

  /** `playerKills`, `playerDeaths` and the due times of scheduled
      `RespawnPlayer` calls. */
  datatype Score = Score(kills: nat, deaths: nat, pending: seq<real>)

  /** The field initialisers: nothing counted, nothing scheduled. */
  const Start: Score := Score(0, 0, [])

  /** `OnEnemyKilled`: one more kill, nothing else. */
  function OnEnemyKilled(g: Score): (r: Score)
    ensures r.kills == g.kills + 1 && r.kills > g.kills
    ensures r.deaths == g.deaths && r.pending == g.pending
  {
    g.(kills := g.kills + 1)
  }

  /** `OnPlayerDeath`: one more death and one respawn due `delay` from now. */
  function OnPlayerDeath(g: Score, now: real, delay: real): (r: Score)
    ensures r.deaths == g.deaths + 1 && r.kills == g.kills
    ensures |r.pending| == |g.pending| + 1 && r.pending[..|g.pending|] == g.pending
    ensures r.pending[|g.pending|] == now + delay
  {
    g.(deaths := g.deaths + 1, pending := g.pending + [now + delay])
  }

  /** `RespawnPlayer`: nothing without a player; otherwise the player comes
      back alive and at rest at the spawn manager's choice, or at
      `Vector3.up` when there is no spawn manager. */
  function RespawnPlayer(player: Option<PlayerState>, spawnChoice: Option<Vec3>): (r: Option<PlayerState>)
    ensures player.None? <==> r.None?
    ensures player.Some? ==>
      && !r.value.isDead
      && r.value.velocity == Zero
      && r.value.position == (if spawnChoice.Some? then spawnChoice.value else Up)
  {
    if player.None? then None
    else Some(Respawn(player.value, if spawnChoice.Some? then spawnChoice.value else Up))
  }

  /** The `RespawnPlayer` timer: when the earliest scheduled respawn is due
      it is taken off the list and the player respawns. */
  datatype Respawned = Respawned(score: Score, player: Option<PlayerState>)

  function FireRespawnTimer(g: Score, now: real, player: Option<PlayerState>, spawnChoice: Option<Vec3>)
    : (r: Respawned)
    ensures r.score.kills == g.kills && r.score.deaths == g.deaths
    ensures |g.pending| > 0 && g.pending[0] <= now ==>
      && r.score.pending == g.pending[1..]
      && r.player == RespawnPlayer(player, spawnChoice)
    ensures !(|g.pending| > 0 && g.pending[0] <= now) ==> r == Respawned(g, player)
  {
    if |g.pending| > 0 && g.pending[0] <= now then
      Respawned(g.(pending := g.pending[1..]), RespawnPlayer(player, spawnChoice))
    else Respawned(g, player)
  }

  // ---------------------------------------------------------------- histories

  /** What can happen to the score. */
  datatype ScoreEvent = EnemyKilled | PlayerDied(at: real) | TimerTick(now: real)

  /** The score after a history of events. */
  function Replay(g: Score, events: seq<ScoreEvent>): (r: Score)
    decreases |events|
  {
    if |events| == 0 then g
    else
      var next := match events[0]
        case EnemyKilled => OnEnemyKilled(g)
        case PlayerDied(at) => OnPlayerDeath(g, at, RespawnDelay)
        case TimerTick(now) => FireRespawnTimer(g, now, None, None).score;
      Replay(next, events[1..])
  }

  /** The kill events of a history (the counting itself is related to the
      score by `ReplayCounts`; the contract here is only a size bound). */
  function CountKills(events: seq<ScoreEvent>): (n: nat)
    ensures n <= |events|
  {
    if |events| == 0 then 0 else (if events[0].EnemyKilled? then 1 else 0) + CountKills(events[1..])
  }

  /** The death events of a history (see `ReplayCounts`). */
  function CountDeaths(events: seq<ScoreEvent>): (n: nat)
    ensures n <= |events|
  {
    if |events| == 0 then 0 else (if events[0].PlayerDied? then 1 else 0) + CountDeaths(events[1..])
  }

  /** The counters count exactly the kills and deaths in the history, so
      they never go down; the scheduled respawns never outnumber the
      deaths that scheduled them. */
  lemma {:induction false} ReplayCounts(g: Score, events: seq<ScoreEvent>)
    ensures Replay(g, events).kills == g.kills + CountKills(events)
    ensures Replay(g, events).deaths == g.deaths + CountDeaths(events)
    ensures |Replay(g, events).pending| <= |g.pending| + CountDeaths(events)
    decreases |events|
  {
    if |events| > 0 {
      var next := match events[0]
        case EnemyKilled => OnEnemyKilled(g)
        case PlayerDied(at) => OnPlayerDeath(g, at, RespawnDelay)
        case TimerTick(now) => FireRespawnTimer(g, now, None, None).score;
      ReplayCounts(next, events[1..]);
    }
  }

  /** Over any history the counters never decrease. */
  lemma CountersNeverDecrease(g: Score, events: seq<ScoreEvent>)
    ensures Replay(g, events).kills >= g.kills && Replay(g, events).deaths >= g.deaths
  {
    ReplayCounts(g, events);
  }
}

=== FILE: movement.dfy ===
/** The Quake-style movement rules of `PlayerController`: ground friction,
    ground and air acceleration towards a wish direction, the speed clamp and
    asymmetric gravity. Each rule is a pure function of the velocity, the
    tuning values and the frame time `dt`. */
module Movement {
  import opened Base
  import opened Vectors

  /** The tuning values of `PlayerController` (its public fields). */
  datatype MoveConfig = MoveConfig(
    moveSpeed: real,
    sprintMultiplier: real,
    jumpForce: real,
    gravity: real,
    airAcceleration: real,
    airMaxSpeed: real,
    groundFriction: real,
    maxBunnySpeed: real,
    fallGravityMultiplier: real,
    fallAirControlMultiplier: real,
    dashDistance: real,
    dashDuration: real,
    dashCooldown: real,
    doubleTapWindow: real)
  {
    /** Every tuning value is non-negative and a dash takes some time. */
    predicate Valid() {
      && moveSpeed >= 0.0 && sprintMultiplier >= 0.0 && jumpForce >= 0.0
      && gravity >= 0.0 && airAcceleration >= 0.0 && airMaxSpeed >= 0.0
      && groundFriction >= 0.0 && maxBunnySpeed >= 0.0
      && fallGravityMultiplier >= 0.0 && fallAirControlMultiplier >= 0.0
      && dashDistance >= 0.0 && dashDuration > 0.0 && dashCooldown >= 0.0
      && doubleTapWindow >= 0.0
    }
  }

  /** The field initialisers of `PlayerController`. */
  const Defaults: MoveConfig :=
    MoveConfig(12.0, 1.5, 8.0, 20.0, 100.0, 1.5, 6.0, 30.0, 2.5, 0.1, 8.0, 0.1, 1.0, 0.3)

  /** Below this horizontal speed friction leaves the velocity alone. */
  const FrictionThreshold: real := 0.1

  /** Ground acceleration per second, as a multiple of the wish speed. */
  const GroundAccelerationRate: real := 10.0

  /** The factor by which one tick of friction scales horizontal velocity. */
  function FrictionFactor(friction: real, dt: real): real {
    Max(1.0 - friction * dt, 0.0)
  }

  /** The ratio `newSpeed / speed` the source computes does not depend on the
      speed: it is always `FrictionFactor`. */
  lemma FrictionRatio(speed: real, friction: real, dt: real)
    requires speed > 0.0
    ensures Max(speed - speed * friction * dt, 0.0) / speed == FrictionFactor(friction, dt)
  {
    var q := 1.0 - friction * dt;
    assert speed - speed * friction * dt == speed * q;
    if q > 0.0 {
      MulNonNeg(speed, q);
      assert speed * q > 0.0;
      assert (speed * q) / speed == q;
    } else {
      MulLeRight(q, 0.0, speed);
    }
  }

  lemma FrictionFactorBounds(friction: real, dt: real)
    requires friction >= 0.0 && dt >= 0.0
    ensures 0.0 <= FrictionFactor(friction, dt) <= 1.0
  {
    MulNonNeg(friction, dt);
  }

  /** `ApplyFriction`: below the threshold the velocity is untouched;
      otherwise x and z are scaled by the same factor and y is kept. */
  function ApplyFriction(friction: real, v: Vec3, dt: real, mag: Magnitude): (r: Vec3)
    ensures r.y == v.y
    ensures mag(Flat(v)) < FrictionThreshold ==> r == v
    ensures mag(Flat(v)) >= FrictionThreshold ==>
      r == v.(x := v.x * FrictionFactor(friction, dt), z := v.z * FrictionFactor(friction, dt))
  {
    var speed := mag(Flat(v));
    if speed < FrictionThreshold then v
    else
      var newSpeed := Max(speed - speed * friction * dt, 0.0);
      FrictionRatio(speed, friction, dt);
      v.(x := v.x * (newSpeed / speed), z := v.z * (newSpeed / speed))
  }

  /** Friction never increases horizontal speed and never flips the sign of
      a horizontal component. */
  lemma FrictionNeverSpeedsUp(friction: real, v: Vec3, dt: real, mag: Magnitude)
    requires friction >= 0.0 && dt >= 0.0
    ensures var r := ApplyFriction(friction, v, dt, mag);
      && r.x * v.x >= 0.0 && r.z * v.z >= 0.0
      && r.x * r.x <= v.x * v.x && r.z * r.z <= v.z * v.z
      && SqMag(Flat(r)) <= SqMag(Flat(v))
  {
    var r := ApplyFriction(friction, v, dt, mag);
    var k := if mag(Flat(v)) < FrictionThreshold then 1.0 else FrictionFactor(friction, dt);
    assert r.x == v.x * k && r.z == v.z * k;
    assert 0.0 <= k <= 1.0 by {
      FrictionFactorBounds(friction, dt);
    }
    ShrinkSquare(v.x, k, r.x);
    ShrinkSquare(v.z, k, r.z);
  }

  /** The factor `ClampHorizontal` scales the horizontal velocity by:
      `maxSpeed / |h|` when the engine reports `|h| > maxSpeed`. */
  function ClampFactor(v: Vec3, maxSpeed: real, mag: Magnitude): real {
    var speed := mag(Flat(v));
    if speed > maxSpeed then
      (if speed > NormalizeEpsilon then maxSpeed / speed else 0.0)
    else 1.0
  }

  lemma ClampFactorBounds(v: Vec3, maxSpeed: real, mag: Magnitude)
    requires maxSpeed >= 0.0
    ensures 0.0 <= ClampFactor(v, maxSpeed, mag) <= 1.0
  {
    var speed := mag(Flat(v));
    if speed > maxSpeed && speed > NormalizeEpsilon {
      DivBelowOne(maxSpeed, speed);
    }
  }

  /** A clamped horizontal velocity has squared length at most `maxSpeed^2`
      when the engine's magnitude is the Euclidean length. */
  lemma ClampSpeedBound(v: Vec3, maxSpeed: real, mag: Magnitude)
    requires IsExact(mag) && maxSpeed >= 0.0
    ensures SqMag(Scale(Flat(v), ClampFactor(v, maxSpeed, mag))) <= maxSpeed * maxSpeed
  {
    var h := Flat(v);
    var speed := mag(h);
    var k := ClampFactor(v, maxSpeed, mag);
    assert ExactAt(mag, h);
    SqMagScale(h, k);
    assert SqMag(Scale(h, k)) == k * k * (speed * speed);
    if speed <= maxSpeed {
      MulLeRight(speed, maxSpeed, speed);
      MulLeRight(speed, maxSpeed, maxSpeed);
    } else if speed > NormalizeEpsilon {
      assert k * speed == maxSpeed;
      assert k * k * (speed * speed) == (k * speed) * (k * speed);
    } else {
      assert k == 0.0;
    }
  }

  /** The "clamp to max bunny speed" step: if the engine reports a horizontal
      speed above `maxSpeed`, replace the horizontal velocity by
      `horizontal.normalized * maxSpeed`. */
  function ClampHorizontal(v: Vec3, maxSpeed: real, mag: Magnitude): (r: Vec3)
    ensures r.y == v.y
    ensures mag(Flat(v)) <= maxSpeed ==> r == v
    ensures Flat(r) == Scale(Flat(v), ClampFactor(v, maxSpeed, mag))
  {
    if mag(Flat(v)) > maxSpeed then
      var c := Scale(Normalized(mag, Flat(v)), maxSpeed);
      ClampScaled(v, maxSpeed, mag);
      v.(x := c.x, z := c.z)
    else
      v
  }

  /** `horizontal.normalized * maxSpeed` is the horizontal velocity scaled by
      the clamp factor. */
  lemma ClampScaled(v: Vec3, maxSpeed: real, mag: Magnitude)
    requires mag(Flat(v)) > maxSpeed
    ensures Scale(Normalized(mag, Flat(v)), maxSpeed) == Scale(Flat(v), ClampFactor(v, maxSpeed, mag))
  {
    var h := Flat(v);
    var speed := mag(h);
    if speed > NormalizeEpsilon {
      var k := 1.0 / speed;
      var m := maxSpeed / speed;
      assert Normalized(mag, h) == Vec3(h.x * k, 0.0, h.z * k);
      assert ClampFactor(v, maxSpeed, mag) == m;
      assert Scale(Vec3(h.x * k, 0.0, h.z * k), maxSpeed) == Vec3(h.x * m, 0.0, h.z * m) by {
        ScaleFlatUnit(h.x, h.z, maxSpeed, speed);
      }
    } else {
      assert Normalized(mag, h) == Zero;
      assert ClampFactor(v, maxSpeed, mag) == 0.0;
    }
  }

  lemma ScaleFlatUnit(x: real, z: real, maxSpeed: real, speed: real)
    requires speed != 0.0
    ensures Scale(Vec3(x * (1.0 / speed), 0.0, z * (1.0 / speed)), maxSpeed)
         == Vec3(x * (maxSpeed / speed), 0.0, z * (maxSpeed / speed))
  {
    DivScale(x, maxSpeed, speed);
    DivScale(z, maxSpeed, speed);
  }

  /** After the clamp the horizontal speed is at most `maxSpeed` and the
      horizontal direction is kept (a factor in [0, 1]). */
  lemma ClampCaps(v: Vec3, maxSpeed: real, mag: Magnitude)
    ensures var k := ClampFactor(v, maxSpeed, mag);
      && Flat(ClampHorizontal(v, maxSpeed, mag)) == Scale(Flat(v), k)
      && (maxSpeed >= 0.0 ==> 0.0 <= k <= 1.0)
      && (IsExact(mag) && maxSpeed >= 0.0 ==>
            SqMag(Flat(ClampHorizontal(v, maxSpeed, mag))) <= maxSpeed * maxSpeed)
  {
    if maxSpeed >= 0.0 {
      ClampFactorBounds(v, maxSpeed, mag);
      if IsExact(mag) {
        ClampSpeedBound(v, maxSpeed, mag);
      }
    }
  }

  /** Adds `accel` along the horizontal part of `wishDir`. */
  function Push(v: Vec3, wishDir: Vec3, accel: real): Vec3 {
    v.(x := v.x + wishDir.x * accel, z := v.z + wishDir.z * accel)
  }

  /** The acceleration rule shared by `GroundAccelerate` and `AirAccelerate`:
      if the speed along `wishDir` is below `cap`, add
      `min(rate, cap - projection)` along `wishDir`, then clamp the horizontal
      speed to `maxSpeed`. */
  function Accelerate(v: Vec3, wishDir: Vec3, cap: real, rate: real, maxSpeed: real,
                      mag: Magnitude): (r: Vec3)
    ensures r.y == v.y
    ensures Dot(Flat(v), wishDir) >= cap ==> r == v
    ensures Dot(Flat(v), wishDir) < cap && IsExact(mag) && maxSpeed >= 0.0 ==>
      SqMag(Flat(r)) <= maxSpeed * maxSpeed
  {
    var projection := Dot(Flat(v), wishDir);
    var addSpeed := cap - projection;
    if addSpeed <= 0.0 then v
    else
      var accel := Min(rate, addSpeed);
      ClampCaps(Push(v, wishDir, accel), maxSpeed, mag);
      ClampHorizontal(Push(v, wishDir, accel), maxSpeed, mag)
  }

  /** Before the clamp, one acceleration step raises the speed along a wish
      direction of length at most 1 by exactly `min(rate, shortfall)` times
      its squared length, and never past `cap`. */
  lemma PushGain(v: Vec3, wishDir: Vec3, cap: real, rate: real)
    requires SqMag(Flat(wishDir)) <= 1.0 && rate >= 0.0
    requires Dot(Flat(v), wishDir) < cap
    ensures var projection := Dot(Flat(v), wishDir);
      var accel := Min(rate, cap - projection);
      && Dot(Flat(Push(v, wishDir, accel)), wishDir)
         == projection + accel * SqMag(Flat(wishDir))
      && projection <= Dot(Flat(Push(v, wishDir, accel)), wishDir) <= cap
  {
    var projection := Dot(Flat(v), wishDir);
    var accel := Min(rate, cap - projection);
    var w2 := SqMag(Flat(wishDir));
    assert Dot(Flat(Push(v, wishDir, accel)), wishDir) == projection + accel * w2;
    assert 0.0 <= w2;
    assert accel * w2 <= accel;
  }

  /** What one acceleration step below the cap adds: the horizontal velocity
      becomes `v + min(rate, cap - projection) * wishDir`, scaled by the
      clamp factor; when that sum is within `maxSpeed` it is kept as it is and
      the speed along `wishDir` grows by the step times `|wishDir|^2`. */
  lemma AccelerateGain(v: Vec3, wishDir: Vec3, cap: real, rate: real, maxSpeed: real,
                       mag: Magnitude)
    requires Dot(Flat(v), wishDir) < cap
    ensures var projection := Dot(Flat(v), wishDir);
      var accel := Min(rate, cap - projection);
      var pushed := Add(Flat(v), Scale(Flat(wishDir), accel));
      var r := Accelerate(v, wishDir, cap, rate, maxSpeed, mag);
      && r.y == v.y
      && Flat(r) == Scale(pushed, ClampFactor(Push(v, wishDir, accel), maxSpeed, mag))
      && (mag(pushed) <= maxSpeed ==>
            && Flat(r) == pushed
            && Dot(Flat(r), wishDir) == projection + accel * SqMag(Flat(wishDir)))
  {
    var projection := Dot(Flat(v), wishDir);
    var accel := Min(rate, cap - projection);
    var p := Push(v, wishDir, accel);
    assert Flat(p) == Add(Flat(v), Scale(Flat(wishDir), accel));
    assert Dot(Flat(p), wishDir) == projection + accel * SqMag(Flat(wishDir));
  }

  /** Acceleration (clamp included) never raises the speed along a short wish
      direction above the larger of `cap` and the speed it started with. */
  lemma AccelerateRespectsCap(v: Vec3, wishDir: Vec3, cap: real, rate: real,
                              maxSpeed: real, mag: Magnitude)
    requires SqMag(Flat(wishDir)) <= 1.0 && rate >= 0.0 && cap >= 0.0 && maxSpeed >= 0.0
    ensures Dot(Flat(Accelerate(v, wishDir, cap, rate, maxSpeed, mag)), wishDir)
      <= Max(Dot(Flat(v), wishDir), cap)
  {
    var projection := Dot(Flat(v), wishDir);
    if projection < cap {
      var p := Push(v, wishDir, Min(rate, cap - projection));
      assert projection <= Dot(Flat(p), wishDir) <= cap by { PushGain(v, wishDir, cap, rate); }
      ClampKeepsCap(p, wishDir, projection, cap, maxSpeed, mag);
    }
  }

  /** Clamping a velocity whose speed along `w` lies between `projection`
      and `cap` keeps that speed below the larger of the two. */
  lemma ClampKeepsCap(p: Vec3, w: Vec3, projection: real, cap: real, maxSpeed: real, mag: Magnitude)
    requires projection <= Dot(Flat(p), w) <= cap && 0.0 <= cap && maxSpeed >= 0.0
    ensures Dot(Flat(ClampHorizontal(p, maxSpeed, mag)), w) <= Max(projection, cap)
  {
    var k := ClampFactor(p, maxSpeed, mag);
    var d := Dot(Flat(p), w);
    assert Dot(Flat(ClampHorizontal(p, maxSpeed, mag)), w) == k * d by {
      ClampScalesDot(p, w, maxSpeed, mag);
    }
    assert 0.0 <= k <= 1.0 by { ClampFactorBounds(p, maxSpeed, mag); }
    ShrunkBelowCap(projection, d, k, Dot(Flat(ClampHorizontal(p, maxSpeed, mag)), w), cap);
  }

  /** The clamp scales the speed along any direction by its clamp factor. */
  lemma ClampScalesDot(p: Vec3, w: Vec3, maxSpeed: real, mag: Magnitude)
    ensures Dot(Flat(ClampHorizontal(p, maxSpeed, mag)), w)
         == ClampFactor(p, maxSpeed, mag) * Dot(Flat(p), w)
  {
    DotScale(Flat(p), ClampFactor(p, maxSpeed, mag), w);
  }

  /** A gain that stays within `cap`, shrunk by a factor in [0, 1], stays
      below the larger of the start and `cap`. */
  lemma ShrunkBelowCap(projection: real, d: real, k: real, c: real, cap: real)
    requires projection <= d <= cap && 0.0 <= cap
    requires 0.0 <= k <= 1.0 && c == k * d
    ensures c <= Max(projection, cap)
  {
    ShrinkTowardZero(d, k, c);
  }

  /** The wish speed: `moveSpeed`, times `sprintMultiplier` while sprinting. */
  function WishSpeed(cfg: MoveConfig, sprinting: bool): (r: real)
    ensures !sprinting ==> r == cfg.moveSpeed
    ensures sprinting ==> r == cfg.moveSpeed * cfg.sprintMultiplier
    ensures cfg.Valid() ==> r >= 0.0
  {
    var speed := cfg.moveSpeed;
    if sprinting then speed * cfg.sprintMultiplier else speed
  }

  /** The wish direction `right * moveX + forward * moveY`, normalized when
      the engine reports it longer than 1. */
  function WishDir(right: Vec3, forward: Vec3, moveX: real, moveY: real, mag: Magnitude): (r: Vec3)
    ensures IsExact(mag) ==> SqMag(r) <= 1.0
    ensures moveX == 0.0 && moveY == 0.0 && mag(Zero) <= 1.0 ==> r == Zero
  {
    var w := Add(Scale(right, moveX), Scale(forward, moveY));
    if mag(w) > 1.0 then
      Normalized(mag, w)
    else
      assert IsExact(mag) ==> SqMag(w) <= 1.0 by {
        if IsExact(mag) {
          assert ExactAt(mag, w);
          assert mag(w) * mag(w) <= 1.0 * mag(w);
        }
      }
      w
  }

  /** Ground acceleration this tick: `wishSpeed * 10 * dt`. */
  function GroundRate(wishSpeed: real, dt: real): (r: real)
    ensures r == wishSpeed * GroundAccelerationRate * dt
    ensures wishSpeed >= 0.0 && dt >= 0.0 ==> r >= 0.0
  {
    assert wishSpeed >= 0.0 && dt >= 0.0 ==> wishSpeed * GroundAccelerationRate * dt >= 0.0 by {
      if wishSpeed >= 0.0 && dt >= 0.0 {
        MulNonNeg(wishSpeed * GroundAccelerationRate, dt);
      }
    }
    wishSpeed * GroundAccelerationRate * dt
  }

  /** Air acceleration this tick: `airAcceleration * controlMultiplier * dt`. */
  function AirRate(cfg: MoveConfig, controlMultiplier: real, dt: real): (r: real)
    ensures r == cfg.airAcceleration * controlMultiplier * dt
    ensures cfg.Valid() && controlMultiplier >= 0.0 && dt >= 0.0 ==> r >= 0.0
  {
    assert cfg.Valid() && controlMultiplier >= 0.0 && dt >= 0.0 ==>
      cfg.airAcceleration * controlMultiplier * dt >= 0.0 by {
      if cfg.Valid() && controlMultiplier >= 0.0 && dt >= 0.0 {
        MulNonNeg(cfg.airAcceleration, controlMultiplier);
        MulNonNeg(cfg.airAcceleration * controlMultiplier, dt);
      }
    }
    cfg.airAcceleration * controlMultiplier * dt
  }

  /** `GroundAccelerate(wishDir, wishSpeed)`: cap `wishSpeed`, rate
      `wishSpeed * 10 * dt`. */
  function GroundAccelerate(cfg: MoveConfig, v: Vec3, wishDir: Vec3, wishSpeed: real, dt: real,
                            mag: Magnitude): (r: Vec3)
    ensures r.y == v.y
    ensures Dot(Flat(v), wishDir) >= wishSpeed ==> r == v
    ensures Dot(Flat(v), wishDir) < wishSpeed && IsExact(mag) && cfg.maxBunnySpeed >= 0.0 ==>
      SqMag(Flat(r)) <= cfg.maxBunnySpeed * cfg.maxBunnySpeed
  {
    Accelerate(v, wishDir, wishSpeed, GroundRate(wishSpeed, dt), cfg.maxBunnySpeed, mag)
  }

  /** The speed cap of air acceleration: `min(moveSpeed * airMaxSpeed, wishSpeed)`. */
  function AirCap(cfg: MoveConfig, wishSpeed: real): (r: real)
    ensures r <= wishSpeed && r <= cfg.moveSpeed * cfg.airMaxSpeed
    ensures r == wishSpeed || r == cfg.moveSpeed * cfg.airMaxSpeed
    ensures cfg.Valid() && wishSpeed >= 0.0 ==> r >= 0.0
  {
    assert cfg.Valid() ==> cfg.moveSpeed * cfg.airMaxSpeed >= 0.0 by {
      if cfg.Valid() {
        MulNonNeg(cfg.moveSpeed, cfg.airMaxSpeed);
      }
    }
    Min(cfg.moveSpeed * cfg.airMaxSpeed, wishSpeed)
  }

  /** `AirAccelerate(wishDir, wishSpeed, controlMultiplier)`: cap `AirCap`,
      rate `airAcceleration * controlMultiplier * dt`. */
  function AirAccelerate(cfg: MoveConfig, v: Vec3, wishDir: Vec3, wishSpeed: real,
                         controlMultiplier: real, dt: real, mag: Magnitude): (r: Vec3)
    ensures r.y == v.y
    ensures Dot(Flat(v), wishDir) >= AirCap(cfg, wishSpeed) ==> r == v
    ensures Dot(Flat(v), wishDir) < AirCap(cfg, wishSpeed) && IsExact(mag) && cfg.maxBunnySpeed >= 0.0 ==>
      SqMag(Flat(r)) <= cfg.maxBunnySpeed * cfg.maxBunnySpeed
  {
    Accelerate(v, wishDir, AirCap(cfg, wishSpeed), AirRate(cfg, controlMultiplier, dt),
               cfg.maxBunnySpeed, mag)
  }

  /** Ground acceleration below the wish speed adds
      `min(wishSpeed * 10 * dt, wishSpeed - projection)` along `wishDir`
      (before the bunny-speed clamp, which leaves a slow enough result alone). */
  lemma GroundAccelerateGain(cfg: MoveConfig, v: Vec3, wishDir: Vec3, wishSpeed: real, dt: real,
                             mag: Magnitude)
    requires Dot(Flat(v), wishDir) < wishSpeed
    ensures var accel := Min(wishSpeed * GroundAccelerationRate * dt, wishSpeed - Dot(Flat(v), wishDir));
      var pushed := Add(Flat(v), Scale(Flat(wishDir), accel));
      mag(pushed) <= cfg.maxBunnySpeed ==>
        Flat(GroundAccelerate(cfg, v, wishDir, wishSpeed, dt, mag)) == pushed
  {
    AccelerateGain(v, wishDir, wishSpeed, GroundRate(wishSpeed, dt), cfg.maxBunnySpeed, mag);
  }

  /** Air acceleration below the air cap adds
      `min(airAcceleration * controlMultiplier * dt, AirCap - projection)`
      along `wishDir` (before the clamp, which leaves a slow enough result
      alone). */
  lemma AirAccelerateGain(cfg: MoveConfig, v: Vec3, wishDir: Vec3, wishSpeed: real,
                          controlMultiplier: real, dt: real, mag: Magnitude)
    requires Dot(Flat(v), wishDir) < AirCap(cfg, wishSpeed)
    ensures var accel := Min(cfg.airAcceleration * controlMultiplier * dt,
                             AirCap(cfg, wishSpeed) - Dot(Flat(v), wishDir));
      var pushed := Add(Flat(v), Scale(Flat(wishDir), accel));
      mag(pushed) <= cfg.maxBunnySpeed ==>
        Flat(AirAccelerate(cfg, v, wishDir, wishSpeed, controlMultiplier, dt, mag)) == pushed
  {
    AccelerateGain(v, wishDir, AirCap(cfg, wishSpeed), AirRate(cfg, controlMultiplier, dt),
                   cfg.maxBunnySpeed, mag);
  }

  /** Air strafing never raises the speed along the wish direction above the
      air cap `min(moveSpeed * airMaxSpeed, wishSpeed)` (unless it was
      already above it, in which case nothing changes). */
  lemma AirStrafeCapped(cfg: MoveConfig, v: Vec3, wishDir: Vec3, wishSpeed: real,
                        controlMultiplier: real, dt: real, mag: Magnitude)
    requires cfg.Valid() && wishSpeed >= 0.0 && controlMultiplier >= 0.0 && dt >= 0.0
    requires SqMag(Flat(wishDir)) <= 1.0
    ensures Dot(Flat(AirAccelerate(cfg, v, wishDir, wishSpeed, controlMultiplier, dt, mag)), wishDir)
      <= Max(Dot(Flat(v), wishDir), AirCap(cfg, wishSpeed))
  {
    AccelerateRespectsCap(v, wishDir, AirCap(cfg, wishSpeed), AirRate(cfg, controlMultiplier, dt),
                          cfg.maxBunnySpeed, mag);
  }

  /** Ground acceleration never raises the speed along the wish direction
      above `wishSpeed` (unless it was already above it). */
  lemma GroundMoveCapped(cfg: MoveConfig, v: Vec3, wishDir: Vec3, wishSpeed: real, dt: real,
                         mag: Magnitude)
    requires cfg.Valid() && wishSpeed >= 0.0 && dt >= 0.0
    requires SqMag(Flat(wishDir)) <= 1.0
    ensures Dot(Flat(GroundAccelerate(cfg, v, wishDir, wishSpeed, dt, mag)), wishDir)
      <= Max(Dot(Flat(v), wishDir), wishSpeed)
  {
    AccelerateRespectsCap(v, wishDir, wishSpeed, GroundRate(wishSpeed, dt), cfg.maxBunnySpeed, mag);
  }

  /** Gravity with a heavier pull while falling: `vy <= 0` loses
      `gravity * fallGravityMultiplier * dt`, rising loses `gravity * dt`. */
  function Gravity(cfg: MoveConfig, vy: real, dt: real): (r: real)
    ensures vy <= 0.0 ==> r == vy - cfg.gravity * cfg.fallGravityMultiplier * dt
    ensures vy > 0.0 ==> r == vy - cfg.gravity * dt
    ensures cfg.Valid() && dt >= 0.0 ==> r <= vy
  {
    if vy <= 0.0 then
      assert cfg.Valid() && dt >= 0.0 ==> cfg.gravity * cfg.fallGravityMultiplier * dt >= 0.0 by {
        if cfg.Valid() && dt >= 0.0 {
          assert cfg.gravity * cfg.fallGravityMultiplier >= 0.0;
        }
      }
      vy - cfg.gravity * cfg.fallGravityMultiplier * dt
    else
      vy - cfg.gravity * dt
  }

  /** With a fall multiplier of at least 1, a falling body gains downward
      speed at least as fast as a rising one loses upward speed. */
  lemma FallingPullsHarder(cfg: MoveConfig, up: real, down: real, dt: real)
    requires cfg.Valid() && cfg.fallGravityMultiplier >= 1.0 && dt >= 0.0
    requires up > 0.0 && down <= 0.0
    ensures down - Gravity(cfg, down, dt) >= up - Gravity(cfg, up, dt)
  {
    assert cfg.gravity * dt >= 0.0;
    assert cfg.gravity * cfg.fallGravityMultiplier * dt == cfg.fallGravityMultiplier * (cfg.gravity * dt);
  }
}

=== FILE: player.dfy ===
/** The per-frame state machine of `PlayerController`: a Normal/Dashing
    machine over velocity, ground contact, jump count and dash timers, plus
    death, respawn, teleport and external impulses. Engine queries (clock,
    frame time, pause, ground contact, the player's right/forward axes and
    vector magnitude) arrive in a `Frame`; keyboard state arrives as an
    `Intent`. Moving the body through the world is the engine's
    `CharacterController.Move`: a step returns the displacement it asks for. */
module Player {
  import opened Base
  import opened Vectors
  import opened Movement

  /** `maxJumps`: one ground jump and one double jump. */
  const MaxJumps: int := 2

  /** `railJumpWindow`: a jump press this recent counts as a jump+shoot combo. */
  const JumpComboWindow: real := 0.15

  /** Initial value of the press and dash timestamps. */
  const NeverPressed: real := -999.0

  /** The downward speed kept while standing, and after a dash. */
  const StandingVerticalSpeed: real := -2.0

  /** Below this input length a dash goes straight forward. */
  const DashMinInput: real := 0.1

  /** Fraction of the dash speed kept when the dash ends. */
  const DashCarry: real := 0.5

  datatype PlayerState = PlayerState(
    position: Vec3,
    velocity: Vec3,
    isGrounded: bool,
    jumpCount: int,
    lastJumpPressTime: real,
    lastShiftPressTime: real,
    lastDashTime: real,
    isDashing: bool,
    dashDirection: Vec3,
    dashTimeRemaining: real,
    isDead: bool)

  /** A freshly created player at `position` (the field initialisers). */
  function Spawned(position: Vec3): (s: PlayerState)
    ensures JumpsInRange(s) && !s.isDead && !s.isDashing
  {
    PlayerState(position, Zero, false, 0, NeverPressed, NeverPressed, NeverPressed,
                false, Zero, 0.0, false)
  }

  /** The keyboard this frame: WASD axes (already diagonal-normalized), shift
      held / pressed this frame, space pressed this frame / held. */
  datatype Intent = Intent(
    moveX: real,
    moveY: real,
    sprintHeld: bool,
    sprintTapped: bool,
    jumpPressed: bool,
    jumpHeld: bool)

  /** The engine this frame: `Time.time`, `Time.deltaTime`, whether the time
      scale is 0, `controller.isGrounded`, `transform.right/forward`, and the
      engine's vector magnitude. */
  datatype Frame = Frame(
    now: real,
    dt: real,
    paused: bool,
    grounded: bool,
    right: Vec3,
    forward: Vec3,
    mag: Magnitude)

  /** A frame's outcome: the new state and the displacement handed to
      `CharacterController.Move`. */
  datatype Step = Step(state: PlayerState, move: Vec3)

  /** The jump counter stays within `0..maxJumps`. */
  predicate JumpsInRange(s: PlayerState) {
    0 <= s.jumpCount <= MaxJumps
  }

  // ---------------------------------------------------------------- dash

  /** `CanDash`: the dash cooldown has elapsed. */
  predicate CanDash(cfg: MoveConfig, s: PlayerState, now: real) {
    now >= s.lastDashTime + cfg.dashCooldown
  }

  /** A sprint press this frame is the second tap of a double tap and the
      cooldown allows a dash. */
  predicate DashStarts(cfg: MoveConfig, s: PlayerState, input: Intent, now: real) {
    input.sprintTapped && now - s.lastShiftPressTime <= cfg.doubleTapWindow && CanDash(cfg, s, now)
  }

  /** The dash direction: the normalized input direction, or straight ahead
      when the input is shorter than 0.1. */
  function DashDirection(input: Intent, f: Frame): (d: Vec3)
    ensures var wish := Add(Scale(f.right, input.moveX), Scale(f.forward, input.moveY));
      && (f.mag(wish) < DashMinInput ==> d == f.forward)
      && (f.mag(wish) >= DashMinInput ==> Cross(d, wish) == Zero && Dot(d, wish) >= 0.0)
      && (f.mag(wish) >= DashMinInput && IsExact(f.mag) ==> Dot(d, wish) == f.mag(wish) > 0.0)
    ensures IsExact(f.mag) && SqMag(f.forward) == 1.0 ==> SqMag(d) == 1.0
  {
    var wish := Add(Scale(f.right, input.moveX), Scale(f.forward, input.moveY));
    if f.mag(wish) < DashMinInput then f.forward
    else
      assert IsExact(f.mag) ==> ExactAt(f.mag, wish);
      Normalized(f.mag, wish)
  }

  /** `TryDash`: enter the Dashing state for `dashDuration`, stamp the dash
      time and drop the vertical velocity; nothing else changes. */
  function TryDash(cfg: MoveConfig, s: PlayerState, input: Intent, f: Frame): (r: PlayerState)
    ensures r.isDashing && r.dashTimeRemaining == cfg.dashDuration && r.lastDashTime == f.now
    ensures r.dashDirection == DashDirection(input, f)
    ensures r.velocity == s.velocity.(y := 0.0)
    ensures r.position == s.position && r.isGrounded == s.isGrounded && r.isDead == s.isDead
    ensures r.jumpCount == s.jumpCount && r.lastShiftPressTime == s.lastShiftPressTime
    ensures r.lastJumpPressTime == s.lastJumpPressTime
  {
    s.(isDashing := true,
       dashDirection := DashDirection(input, f),
       dashTimeRemaining := cfg.dashDuration,
       lastDashTime := f.now,
       velocity := s.velocity.(y := 0.0))
  }

  /** Dash speed: `dashDistance / dashDuration`. */
  function DashSpeed(cfg: MoveConfig): real
    requires cfg.dashDuration != 0.0
  {
    cfg.dashDistance / cfg.dashDuration
  }

  /** `HandleDash`: move along the locked direction at dash speed and count
      the time down; when it runs out, leave the dash with half the dash
      speed and a small downward speed. Jumping, gravity and friction are
      skipped. */
  function HandleDash(cfg: MoveConfig, s: PlayerState, dt: real): (r: Step)
    requires cfg.dashDuration != 0.0 && s.isDashing
    ensures r.move == Scale(s.dashDirection, DashSpeed(cfg) * dt)
    ensures r.state.dashTimeRemaining == s.dashTimeRemaining - dt
    ensures r.state.isDashing <==> s.dashTimeRemaining - dt > 0.0
    ensures r.state.isDashing ==> r.state.velocity == s.velocity
    ensures !r.state.isDashing ==>
      r.state.velocity == Scale(s.dashDirection, DashSpeed(cfg) * DashCarry).(y := StandingVerticalSpeed)
    ensures r.state == s.(isDashing := r.state.isDashing, velocity := r.state.velocity,
                          dashTimeRemaining := r.state.dashTimeRemaining)
  {
    var speed := DashSpeed(cfg);
    var move := Scale(Scale(s.dashDirection, speed), dt);
    var remaining := s.dashTimeRemaining - dt;
    assert move == Scale(s.dashDirection, speed * dt);
    if remaining <= 0.0 then
      var carry := Scale(Scale(s.dashDirection, speed), DashCarry);
      assert carry == Scale(s.dashDirection, speed * DashCarry);
      Step(s.(isDashing := false, dashTimeRemaining := remaining,
              velocity := carry.(y := StandingVerticalSpeed)), move)
    else
      Step(s.(dashTimeRemaining := remaining), move)
  }

  // ---------------------------------------------------------------- input

  /** The timing part of `HandleInput`: a sprint press within
      `doubleTapWindow` of the previous one starts a dash if `CanDash`, and
      every sprint press (and jump press) is time-stamped. */
  function HandleInput(cfg: MoveConfig, s: PlayerState, input: Intent, f: Frame): (r: PlayerState)
    ensures DashStarts(cfg, s, input, f.now) ==>
      && r.isDashing && r.lastDashTime == f.now && r.dashTimeRemaining == cfg.dashDuration
      && r.dashDirection == DashDirection(input, f)
      && r.velocity == s.velocity.(y := 0.0)
    ensures !DashStarts(cfg, s, input, f.now) ==>
      && r.isDashing == s.isDashing && r.lastDashTime == s.lastDashTime
      && r.dashTimeRemaining == s.dashTimeRemaining && r.dashDirection == s.dashDirection
      && r.velocity == s.velocity
    ensures r.lastShiftPressTime == (if input.sprintTapped then f.now else s.lastShiftPressTime)
    ensures r.lastJumpPressTime == (if input.jumpPressed then f.now else s.lastJumpPressTime)
    ensures r.position == s.position && r.isGrounded == s.isGrounded && r.isDead == s.isDead
    ensures r.jumpCount == s.jumpCount
  {
    var afterShift :=
      if input.sprintTapped then
        var dashed := if DashStarts(cfg, s, input, f.now) then TryDash(cfg, s, input, f) else s;
        dashed.(lastShiftPressTime := f.now)
      else s;
    if input.jumpPressed then afterShift.(lastJumpPressTime := f.now) else afterShift
  }

  // ---------------------------------------------------------------- normal movement

  /** Velocity and jump count as they leave the grounded or airborne branch,
      before gravity. */
  datatype Motion = Motion(velocity: Vec3, jumpCount: int)

  /** A landing tick with jump held: friction is skipped and a jump fires. */
  predicate BunnyHop(justLanded: bool, input: Intent) {
    justLanded && input.jumpHeld
  }

  /** The grounded branch: friction unless bunny-hopping, ground
      acceleration, a negative vertical speed reset to -2, then a jump on a
      jump press or bunny hop (jump count 1, otherwise 0). */
  function GroundPhase(cfg: MoveConfig, v: Vec3, justLanded: bool, input: Intent,
                       wishDir: Vec3, wishSpeed: real, f: Frame): (m: Motion)
    ensures var jumps := input.jumpPressed || BunnyHop(justLanded, input);
      && m.jumpCount == (if jumps then 1 else 0)
      && m.velocity.y == (if jumps then cfg.jumpForce
                          else if v.y < 0.0 then StandingVerticalSpeed else v.y)
  {
    var bunnyHop := BunnyHop(justLanded, input);
    var braked := if bunnyHop then v else ApplyFriction(cfg.groundFriction, v, f.dt, f.mag);
    var pushed := GroundAccelerate(cfg, braked, wishDir, wishSpeed, f.dt, f.mag);
    var settled := if pushed.y < 0.0 then pushed.(y := StandingVerticalSpeed) else pushed;
    if input.jumpPressed || bunnyHop then Motion(settled.(y := cfg.jumpForce), 1)
    else Motion(settled, 0)
  }

  /** A double jump: jump pressed in the air with a jump left, not sprinting. */
  predicate DoubleJump(jumpCount: int, input: Intent) {
    input.jumpPressed && jumpCount < MaxJumps && !input.sprintHeld
  }

  /** Air control is full while rising and `fallAirControlMultiplier` while
      falling (`vy <= 0`). */
  function AirControl(cfg: MoveConfig, vy: real): (c: real)
    ensures vy <= 0.0 ==> c == cfg.fallAirControlMultiplier
    ensures vy > 0.0 ==> c == 1.0
  {
    if vy <= 0.0 then cfg.fallAirControlMultiplier else 1.0
  }

  /** The airborne branch: air acceleration with rising/falling control, then
      a double jump if allowed. */
  function AirPhase(cfg: MoveConfig, v: Vec3, jumpCount: int, input: Intent,
                    wishDir: Vec3, wishSpeed: real, f: Frame): (m: Motion)
    ensures DoubleJump(jumpCount, input) ==>
      m.jumpCount == jumpCount + 1 && m.velocity.y == cfg.jumpForce
    ensures !DoubleJump(jumpCount, input) ==>
      m.jumpCount == jumpCount && m.velocity.y == v.y
  {
    var steered := AirAccelerate(cfg, v, wishDir, wishSpeed, AirControl(cfg, v.y), f.dt, f.mag);
    if DoubleJump(jumpCount, input) then Motion(steered.(y := cfg.jumpForce), jumpCount + 1)
    else Motion(steered, jumpCount)
  }

  /** The Normal-state part of `HandleMovement`: sample ground contact,
      detect the landing edge, run the grounded or airborne branch, apply
      gravity and ask to move by `velocity * dt`. */
  function NormalMove(cfg: MoveConfig, s: PlayerState, input: Intent, f: Frame): (r: Step)
    ensures r.state.isGrounded == f.grounded
    ensures r.move == Scale(r.state.velocity, f.dt)
    ensures r.state == s.(velocity := r.state.velocity, isGrounded := f.grounded,
                          jumpCount := r.state.jumpCount)
  {
    var m := PhaseOf(cfg, s, input, f);
    var v := m.velocity.(y := Gravity(cfg, m.velocity.y, f.dt));
    Step(s.(velocity := v, isGrounded := f.grounded, jumpCount := m.jumpCount), Scale(v, f.dt))
  }

  /** The grounded or airborne branch this tick selects. */
  function PhaseOf(cfg: MoveConfig, s: PlayerState, input: Intent, f: Frame): Motion {
    var wishDir := WishDir(f.right, f.forward, input.moveX, input.moveY, f.mag);
    var wishSpeed := WishSpeed(cfg, input.sprintHeld);
    if f.grounded then
      GroundPhase(cfg, s.velocity, !s.isGrounded, input, wishDir, wishSpeed, f)
    else
      AirPhase(cfg, s.velocity, s.jumpCount, input, wishDir, wishSpeed, f)
  }

  /** `HandleMovement`: a dashing player only dashes; otherwise the normal
      grounded or airborne movement runs. */
  function HandleMovement(cfg: MoveConfig, s: PlayerState, input: Intent, f: Frame): (r: Step)
    requires cfg.dashDuration != 0.0
    ensures s.isDashing ==> r == HandleDash(cfg, s, f.dt)
    ensures !s.isDashing ==> r == NormalMove(cfg, s, input, f)
  {
    if s.isDashing then HandleDash(cfg, s, f.dt) else NormalMove(cfg, s, input, f)
  }

  /** `Update`: nothing happens while paused or dead; otherwise input timing,
      then movement. */
  function Update(cfg: MoveConfig, s: PlayerState, input: Intent, f: Frame): (r: Step)
    requires cfg.dashDuration != 0.0
    ensures f.paused || s.isDead ==> r == Step(s, Zero)
    ensures r.state.isDead == s.isDead && r.state.position == s.position
  {
    if f.paused || s.isDead then Step(s, Zero)
    else HandleMovement(cfg, HandleInput(cfg, s, input, f), input, f)
  }

  // ---------------------------------------------------------------- other entry points

  /** `Teleport`: place the body and stop it. */
  function Teleport(s: PlayerState, position: Vec3): (r: PlayerState)
    ensures r.position == position && r.velocity == Zero
    ensures r == s.(position := position, velocity := Zero)
  {
    s.(position := position, velocity := Zero)
  }

  /** `AddVelocity`: an impulse adds to the velocity and leaves exactly one
      more jump available. */
  function AddVelocity(s: PlayerState, force: Vec3): (r: PlayerState)
    ensures r.velocity == Add(s.velocity, force) && r.jumpCount == 1
    ensures JumpsInRange(r)
    ensures r == s.(velocity := r.velocity, jumpCount := 1)
  {
    s.(velocity := Add(s.velocity, force), jumpCount := 1)
  }

  /** `WasJumpPressedRecently`: jump pressed within the combo window. */
  predicate WasJumpPressedRecently(s: PlayerState, now: real) {
    now - s.lastJumpPressTime <= JumpComboWindow
  }

  /** The result of `Die`: the new state and whether the game manager was
      told (`OnPlayerDeath`). */
  datatype Death = Death(state: PlayerState, notified: bool)

  /** `Die`: the first call marks the player dead, stops it and notifies the
      game manager; a dead player's `Die` does nothing. */
  function Die(s: PlayerState): (r: Death)
    ensures r.state.isDead
    ensures r.notified <==> !s.isDead
    ensures s.isDead ==> r.state == s
    ensures !s.isDead ==> r.state == s.(isDead := true, velocity := Zero)
  {
    if s.isDead then Death(s, false)
    else Death(s.(isDead := true, velocity := Zero), true)
  }

  /** `Respawn`: alive again, teleported to `position`, at rest. */
  function Respawn(s: PlayerState, position: Vec3): (r: PlayerState)
    ensures !r.isDead && r.position == position && r.velocity == Zero
    ensures r.jumpCount == s.jumpCount && r.isDashing == s.isDashing
  {
    Teleport(s.(isDead := false), position)
  }
}

=== FILE: player_facts.dfy ===
/** Properties of whole `PlayerController` frames: what a grounded or an
    airborne tick does to the jump counter and the velocity, the jump-count
    invariant, bunny hops, impulses carried through a tick, and how long a
    dash lasts and how far it goes. */
module PlayerFacts {
  import opened Base
  import opened Vectors
  import opened Movement
  import opened Player

  /** A frame that reaches the Normal-state integration: not paused, alive,
      not dashing and not starting a dash. */
  predicate NormalFrame(cfg: MoveConfig, s: PlayerState, input: Intent, f: Frame) {
    !f.paused && !s.isDead && !s.isDashing && !DashStarts(cfg, s, input, f.now)
  }

  /** The velocity the grounded branch starts from: the current one on a
      bunny hop, the braked one otherwise. */
  function BrakedOrNot(cfg: MoveConfig, s: PlayerState, input: Intent, f: Frame): Vec3 {
    if BunnyHop(!s.isGrounded, input) then s.velocity
    else ApplyFriction(cfg.groundFriction, s.velocity, f.dt, f.mag)
  }

  /** A grounded tick: the jump counter is reset to 0, or to 1 by a jump
      press or a bunny hop; the vertical speed is `jumpForce` after a jump
      and otherwise a negative speed is reset to -2, and gravity is applied
      after that; friction is applied before ground acceleration exactly
      when this is not a landing tick with jump held. */
  lemma GroundedTick(cfg: MoveConfig, s: PlayerState, input: Intent, f: Frame)
    requires cfg.dashDuration != 0.0 && NormalFrame(cfg, s, input, f) && f.grounded
    ensures var r := Update(cfg, s, input, f).state;
      var jumps := input.jumpPressed || BunnyHop(!s.isGrounded, input);
      && r.isGrounded
      && r.jumpCount == (if jumps then 1 else 0)
      && r.velocity.y == Gravity(cfg, if jumps then cfg.jumpForce
                                      else if s.velocity.y < 0.0 then StandingVerticalSpeed
                                      else s.velocity.y, f.dt)
      && Flat(r.velocity) == Flat(GroundAccelerate(cfg, BrakedOrNot(cfg, s, input, f),
                                  WishDir(f.right, f.forward, input.moveX, input.moveY, f.mag),
                                  WishSpeed(cfg, input.sprintHeld), f.dt, f.mag))
  {
    var s1 := HandleInput(cfg, s, input, f);
    assert s1.velocity == s.velocity && s1.isGrounded == s.isGrounded && !s1.isDashing;
    assert Update(cfg, s, input, f) == NormalMove(cfg, s1, input, f);
  }

  /** An airborne tick: air acceleration with the rising/falling control
      multiplier, a double jump exactly when jump is pressed, a jump is left
      and sprint is not held, then gravity. */
  lemma AirborneTick(cfg: MoveConfig, s: PlayerState, input: Intent, f: Frame)
    requires cfg.dashDuration != 0.0 && NormalFrame(cfg, s, input, f) && !f.grounded
    ensures var r := Update(cfg, s, input, f).state;
      var jumps := DoubleJump(s.jumpCount, input);
      && !r.isGrounded
      && r.jumpCount == (if jumps then s.jumpCount + 1 else s.jumpCount)
      && r.velocity.y == Gravity(cfg, if jumps then cfg.jumpForce else s.velocity.y, f.dt)
      && Flat(r.velocity) == Flat(AirAccelerate(cfg, s.velocity,
                                  WishDir(f.right, f.forward, input.moveX, input.moveY, f.mag),
                                  WishSpeed(cfg, input.sprintHeld),
                                  AirControl(cfg, s.velocity.y), f.dt, f.mag))
  {
    var s1 := HandleInput(cfg, s, input, f);
    assert s1.velocity == s.velocity && s1.jumpCount == s.jumpCount && !s1.isDashing;
    assert Update(cfg, s, input, f) == NormalMove(cfg, s1, input, f);
  }

  /** Sprinting forbids the double jump: an airborne sprinting tick keeps the
      jump counter and only gravity changes the vertical speed. */
  lemma NoDoubleJumpWhileSprinting(cfg: MoveConfig, s: PlayerState, input: Intent, f: Frame)
    requires cfg.dashDuration != 0.0 && NormalFrame(cfg, s, input, f) && !f.grounded
    requires input.sprintHeld
    ensures var r := Update(cfg, s, input, f).state;
      r.jumpCount == s.jumpCount && r.velocity.y == Gravity(cfg, s.velocity.y, f.dt)
  {
    AirborneTick(cfg, s, input, f);
  }

  /** Every frame keeps the jump counter within `0..maxJumps`. */
  lemma UpdateKeepsJumpsInRange(cfg: MoveConfig, s: PlayerState, input: Intent, f: Frame)
    requires cfg.dashDuration != 0.0 && JumpsInRange(s)
    ensures JumpsInRange(Update(cfg, s, input, f).state)
  {
    if !f.paused && !s.isDead {
      var s1 := HandleInput(cfg, s, input, f);
      assert s1.jumpCount == s.jumpCount;
      if !s1.isDashing {
        assert Update(cfg, s, input, f) == NormalMove(cfg, s1, input, f);
        if !f.grounded {
          assert s1.jumpCount < MaxJumps || !DoubleJump(s1.jumpCount, input);
        }
      }
    }
  }

  /** Death, respawn and impulses also keep the jump counter in range. */
  lemma OtherEntryPointsKeepJumpsInRange(s: PlayerState, position: Vec3, force: Vec3)
    requires JumpsInRange(s)
    ensures JumpsInRange(Die(s).state)
    ensures JumpsInRange(Respawn(s, position))
    ensures JumpsInRange(Teleport(s, position))
    ensures JumpsInRange(AddVelocity(s, force))
  {
  }

  /** With no movement input the wish direction is the zero vector. */
  lemma NoInputNoWish(f: Frame)
    requires IsExact(f.mag)
    ensures WishDir(f.right, f.forward, 0.0, 0.0, f.mag) == Zero
  {
    assert Add(Scale(f.right, 0.0), Scale(f.forward, 0.0)) == Zero;
    assert ExactAt(f.mag, Zero);
    assert f.mag(Zero) * f.mag(Zero) == 0.0;
  }

  /** Accelerating towards the zero vector only applies the speed clamp. */
  lemma AccelerateNowhere(v: Vec3, cap: real, rate: real, maxSpeed: real, mag: Magnitude)
    ensures var r := Accelerate(v, Zero, cap, rate, maxSpeed, mag);
      && (cap > 0.0 ==> r == ClampHorizontal(v, maxSpeed, mag))
      && (cap <= 0.0 ==> r == v)
  {
    assert Dot(Flat(v), Zero) == 0.0;
    if cap > 0.0 {
      assert Push(v, Zero, Min(rate, cap)) == v;
    }
  }

  /** The factor ground acceleration without input scales the horizontal
      velocity by: the clamp factor when the wish speed is positive. */
  function IdleClamp(cfg: MoveConfig, v: Vec3, wishSpeed: real, mag: Magnitude): real {
    if wishSpeed > 0.0 then ClampFactor(v, cfg.maxBunnySpeed, mag) else 1.0
  }

  /** Ground acceleration with no movement input only shrinks the horizontal
      velocity along its own direction (by a factor in [0, 1]) and keeps the
      vertical part; together with `FrictionNeverSpeedsUp` a grounded tick
      without input never speeds the player up. */
  lemma IdleGroundScales(cfg: MoveConfig, v: Vec3, wishSpeed: real, dt: real, mag: Magnitude)
    requires cfg.Valid()
    ensures GroundAccelerate(cfg, v, Zero, wishSpeed, dt, mag)
      == v.(x := v.x * IdleClamp(cfg, v, wishSpeed, mag), z := v.z * IdleClamp(cfg, v, wishSpeed, mag))
    ensures 0.0 <= IdleClamp(cfg, v, wishSpeed, mag) <= 1.0
  {
    var k := IdleClamp(cfg, v, wishSpeed, mag);
    IdleAccelerateScales(v, wishSpeed, GroundRate(wishSpeed, dt), cfg.maxBunnySpeed, mag, k);
    assert GroundAccelerate(cfg, v, Zero, wishSpeed, dt, mag)
        == Accelerate(v, Zero, wishSpeed, GroundRate(wishSpeed, dt), cfg.maxBunnySpeed, mag);
  }

  /** Accelerating towards the zero vector scales the horizontal velocity
      by `k`: the clamp factor when the cap is positive, 1 otherwise. */
  lemma IdleAccelerateScales(v: Vec3, cap: real, rate: real, maxSpeed: real, mag: Magnitude,
                             k: real)
    requires maxSpeed >= 0.0
    requires k == if cap > 0.0 then ClampFactor(v, maxSpeed, mag) else 1.0
    ensures Accelerate(v, Zero, cap, rate, maxSpeed, mag) == v.(x := v.x * k, z := v.z * k)
    ensures 0.0 <= k <= 1.0
  {
    var p := Accelerate(v, Zero, cap, rate, maxSpeed, mag);
    AccelerateNowhere(v, cap, rate, maxSpeed, mag);
    if cap > 0.0 {
      ClampFactorBounds(v, maxSpeed, mag);
      assert Flat(p) == Scale(Flat(v), k);
      assert p.x == v.x * k && p.z == v.z * k && p.y == v.y;
    } else {
      assert p == v;
    }
  }

  /** Without input, a velocity already within the bunny-hop cap passes
      ground and air acceleration unchanged. */
  lemma NoWishWithinCap(cfg: MoveConfig, v: Vec3, wishSpeed: real, control: real, dt: real,
                        mag: Magnitude)
    requires cfg.Valid() && wishSpeed >= 0.0 && mag(Flat(v)) <= cfg.maxBunnySpeed
    ensures GroundAccelerate(cfg, v, Zero, wishSpeed, dt, mag) == v
    ensures AirAccelerate(cfg, v, Zero, wishSpeed, control, dt, mag) == v
  {
    AccelerateNowhere(v, wishSpeed, GroundRate(wishSpeed, dt), cfg.maxBunnySpeed, mag);
    var cap := AirCap(cfg, wishSpeed);
    AccelerateNowhere(v, cap, AirRate(cfg, control, dt), cfg.maxBunnySpeed, mag);
  }

  /** A bunny hop keeps all horizontal speed (up to the bunny-hop cap): with
      no movement input, landing with jump held leaves the horizontal
      velocity untouched, jumps (`jumpForce`, then gravity) and uses one jump. */
  lemma BunnyHopKeepsSpeed(cfg: MoveConfig, s: PlayerState, input: Intent, f: Frame)
    requires cfg.Valid() && IsExact(f.mag)
    requires NormalFrame(cfg, s, input, f) && f.grounded && !s.isGrounded && input.jumpHeld
    requires input.moveX == 0.0 && input.moveY == 0.0
    requires f.mag(Flat(s.velocity)) <= cfg.maxBunnySpeed
    ensures var r := Update(cfg, s, input, f).state;
      && Flat(r.velocity) == Flat(s.velocity)
      && r.velocity.y == Gravity(cfg, cfg.jumpForce, f.dt)
      && r.jumpCount == 1
  {
    var ws := WishSpeed(cfg, input.sprintHeld);
    NoWishWithinCap(cfg, s.velocity, ws, 1.0, f.dt, f.mag);
    GroundedTick(cfg, s, input, f);
    NoInputNoWish(f);
  }

  /** An impulse is added to, not replacing, the velocity: after
      `AddVelocity(force)`, one airborne tick without input leaves the
      horizontal velocity at `old + force` (within the bunny-hop cap), pulls
      the vertical part `old.y + force.y` down by gravity, and keeps the one
      jump the impulse granted. */
  lemma ImpulseCarriesOver(cfg: MoveConfig, s: PlayerState, force: Vec3, input: Intent, f: Frame)
    requires cfg.Valid() && IsExact(f.mag)
    requires NormalFrame(cfg, s, input, f) && !f.grounded
    requires input.moveX == 0.0 && input.moveY == 0.0 && !input.jumpPressed
    requires f.mag(Flat(Add(s.velocity, force))) <= cfg.maxBunnySpeed
    ensures var r := Update(cfg, AddVelocity(s, force), input, f).state;
      && Flat(r.velocity) == Flat(Add(s.velocity, force))
      && r.velocity.y == Gravity(cfg, s.velocity.y + force.y, f.dt)
      && r.jumpCount == 1
  {
    var pushed := AddVelocity(s, force);
    var r := Update(cfg, pushed, input, f).state;
    var ws := WishSpeed(cfg, input.sprintHeld);
    var c := AirControl(cfg, pushed.velocity.y);
    var air := AirAccelerate(cfg, pushed.velocity, Zero, ws, c, f.dt, f.mag);
    assert air == pushed.velocity by {
      NoWishWithinCap(cfg, pushed.velocity, ws, c, f.dt, f.mag);
    }
    assert Flat(r.velocity) == Flat(air) && r.velocity.y == Gravity(cfg, pushed.velocity.y, f.dt)
        && r.jumpCount == pushed.jumpCount by {
      assert NormalFrame(cfg, pushed, input, f);
      assert !DoubleJump(pushed.jumpCount, input);
      AirborneTick(cfg, pushed, input, f);
      NoInputNoWish(f);
    }
  }

  /** A dashing frame skips the Normal integration: no gravity, no jumps, no
      ground sampling; the velocity only changes when the dash ends. */
  lemma DashingTick(cfg: MoveConfig, s: PlayerState, input: Intent, f: Frame)
    requires cfg.dashDuration != 0.0 && !f.paused && !s.isDead && s.isDashing
    requires !DashStarts(cfg, s, input, f.now)
    ensures var r := Update(cfg, s, input, f);
      && r.state.isGrounded == s.isGrounded
      && r.state.jumpCount == s.jumpCount
      && r.state.dashTimeRemaining == s.dashTimeRemaining - f.dt
      && (r.state.isDashing ==> r.state.velocity == s.velocity)
      && (!r.state.isDashing ==>
            r.state.velocity == Scale(s.dashDirection, DashSpeed(cfg) * DashCarry).(y := StandingVerticalSpeed))
      && r.move == Scale(s.dashDirection, DashSpeed(cfg) * f.dt)
  {
    var s1 := HandleInput(cfg, s, input, f);
    assert s1.isDashing && s1.dashDirection == s.dashDirection && s1.velocity == s.velocity;
    assert Update(cfg, s, input, f) == HandleDash(cfg, s1, f.dt);
  }

  // ---------------------------------------------------------------- a whole dash

  function Sum(xs: seq<real>): real {
    if |xs| == 0 then 0.0 else xs[0] + Sum(xs[1..])
  }

  /** Dash frames in a row: the final state, the total displacement asked
      of the engine, the number of frames spent dashing and their time. */
  datatype DashTrace = DashTrace(state: PlayerState, moved: Vec3, ticks: nat, elapsed: real)

  /** Runs `HandleDash` on successive frame times while the dash lasts.
      Its own contract only bounds the frame count; what a dash does is
      stated by `DashRunTiming`. */
  function DashRun(cfg: MoveConfig, s: PlayerState, dts: seq<real>): (t: DashTrace)
    requires cfg.dashDuration != 0.0
    ensures t.ticks <= |dts|
    decreases |dts|
  {
    if !s.isDashing || |dts| == 0 then DashTrace(s, Zero, 0, 0.0)
    else
      var step := HandleDash(cfg, s, dts[0]);
      var rest := DashRun(cfg, step.state, dts[1..]);
      DashTrace(rest.state, Add(step.move, rest.moved), rest.ticks + 1, dts[0] + rest.elapsed)
  }

  lemma SumPrefixStep(dts: seq<real>, k: nat)
    requires 0 < |dts| && k < |dts|
    ensures Sum(dts[..k + 1]) == dts[0] + Sum(dts[1..][..k])
  {
    assert dts[..k + 1][1..] == dts[1..][..k];
  }

  /** How far a dash in direction `d` carries the player in `time` seconds. */
  function DashDisplacement(cfg: MoveConfig, d: Vec3, time: real): Vec3
    requires cfg.dashDuration != 0.0
  {
    Scale(d, DashSpeed(cfg) * time)
  }

  lemma DisplacementSplit(cfg: MoveConfig, d: Vec3, t1: real, t2: real)
    requires cfg.dashDuration != 0.0
    ensures Add(DashDisplacement(cfg, d, t1), DashDisplacement(cfg, d, t2))
      == DashDisplacement(cfg, d, t1 + t2)
  {
    var sp := DashSpeed(cfg);
    assert sp * t1 + sp * t2 == sp * (t1 + t2);
  }

  /** A dash lasts exactly until its remaining time is used up: over frames
      of positive length it ends on the first frame whose accumulated time
      reaches the remaining dash time, the displacement is the dash direction
      times dash speed times that time, and it ends with half dash speed
      and the -2 downward speed. */
  lemma {:induction false} DashRunTiming(cfg: MoveConfig, s: PlayerState, dts: seq<real>)
    requires cfg.dashDuration != 0.0 && s.isDashing && s.dashTimeRemaining > 0.0
    requires forall i :: 0 <= i < |dts| ==> dts[i] > 0.0
    requires Sum(dts) >= s.dashTimeRemaining
    ensures var t := DashRun(cfg, s, dts);
      && !t.state.isDashing
      && 1 <= t.ticks <= |dts|
      && t.elapsed == Sum(dts[..t.ticks])
      && t.elapsed >= s.dashTimeRemaining
      && t.elapsed - dts[t.ticks - 1] < s.dashTimeRemaining
      && t.moved == DashDisplacement(cfg, s.dashDirection, t.elapsed)
      && t.state.velocity == Scale(s.dashDirection, DashSpeed(cfg) * DashCarry).(y := StandingVerticalSpeed)
    decreases |dts|
  {
    assert |dts| > 0;
    var step := HandleDash(cfg, s, dts[0]);
    var rest := DashRun(cfg, step.state, dts[1..]);
    var t := DashRun(cfg, s, dts);
    assert t == DashTrace(rest.state, Add(step.move, rest.moved), rest.ticks + 1, dts[0] + rest.elapsed);
    if s.dashTimeRemaining - dts[0] <= 0.0 {
      assert !step.state.isDashing;
      assert rest == DashTrace(step.state, Zero, 0, 0.0);
      assert dts[..1] == [dts[0]];
      assert Sum([dts[0]]) == dts[0] + Sum([]);
      assert t.moved == step.move && t.elapsed == dts[0];
      assert step.move == DashDisplacement(cfg, s.dashDirection, dts[0]);
    } else {
      assert step.state.isDashing && step.state.dashDirection == s.dashDirection;
      assert Sum(dts) == dts[0] + Sum(dts[1..]);
      DashRunTiming(cfg, step.state, dts[1..]);
      SumPrefixStep(dts, rest.ticks);
      assert dts[t.ticks - 1] == dts[1..][rest.ticks - 1];
      assert step.move == DashDisplacement(cfg, s.dashDirection, dts[0]);
      DisplacementSplit(cfg, s.dashDirection, dts[0], rest.elapsed);
    }
  }

  /** Once a dash starts at `f.now`, the next one may start exactly from
      `f.now + dashCooldown` on, and not a moment earlier. */
  lemma DashReadyAfterCooldown(cfg: MoveConfig, s: PlayerState, input: Intent, f: Frame,
                               later: real)
    requires DashStarts(cfg, s, input, f.now)
    ensures CanDash(cfg, HandleInput(cfg, s, input, f), later) <==> later >= f.now + cfg.dashCooldown
  {
  }

  /** Dying twice notifies once: the second `Die` changes nothing. */
  lemma DieIdempotent(s: PlayerState)
    ensures Die(Die(s).state) == Death(Die(s).state, false)
    ensures !(Die(s).notified && Die(Die(s).state).notified)
  {
  }

  /** A dead player's frame is a no-op until `Respawn` clears the flag. */
  lemma DeadPlayerFrozen(cfg: MoveConfig, s: PlayerState, input: Intent, f: Frame, position: Vec3)
    requires cfg.dashDuration != 0.0
    ensures var dead := Die(s).state;
      && Update(cfg, dead, input, f) == Step(dead, Zero)
      && !Respawn(dead, position).isDead
      && Respawn(dead, position).velocity == Zero
  {
  }
}

=== FILE: railgun.dfy ===
/** The player's weapon (`Railgun`): a hitscan shot with a cooldown that
    kills the first enemy on the ray and, when the hit point is close to
    the player, pushes the player away from it (the "rail jump").

    The ray cast is a parameter (`RayHit`); so is the player's distance to
    the ground, which the engine measures with another ray. */
module Railgun {
  import opened Base
  import opened Vectors
  import opened Player
  import Movement

  datatype WeaponConfig = WeaponConfig(
    cooldown: real,
    range: real,
    railJumpRadius: real,
    railJumpForce: real,
    railJumpBaseUpForce: real,
    maxEffectiveHeight: real,
    jumpComboBonus: real)
  {
    /** The inspector values the rules below rely on: non-negative tuning
        and a positive falloff height. */
    predicate Valid() {
      && cooldown >= 0.0 && railJumpRadius >= 0.0 && railJumpForce >= 0.0
      && railJumpBaseUpForce >= 0.0 && maxEffectiveHeight > 0.0 && jumpComboBonus >= 0.0
    }
  }

  /** The field initialisers of `Railgun`. */
  const Defaults: WeaponConfig := WeaponConfig(1.5, 500.0, 5.0, 10.0, 6.0, 1.5, 1.3)

  /** `lastFireTime` before the first shot. */
  const NeverFired: real := -999.0

  /** The rail jump's vertical push is capped at this many jump forces. */
  const UpForceCapJumps: real := 3.0

  /** `CanFire`: the cooldown since the last shot has elapsed. */
  predicate CanFire(cfg: WeaponConfig, lastFireTime: real, now: real) {
    now >= lastFireTime + cfg.cooldown
  }

  /** `CooldownRemaining`: `max(0, lastFireTime + cooldown - now)`. */
  function CooldownRemaining(cfg: WeaponConfig, lastFireTime: real, now: real): (r: real)
    ensures r >= 0.0
    ensures r == 0.0 <==> CanFire(cfg, lastFireTime, now)
    ensures now >= lastFireTime ==> r <= Max(cfg.cooldown, 0.0)
  {
    Max(0.0, lastFireTime + cfg.cooldown - now)
  }

  /** `CooldownPercent`: `1 - remaining / cooldown`; full exactly when the
      gun can fire again, and within [0, 1] once the last shot is past. */
  function CooldownPercent(cfg: WeaponConfig, lastFireTime: real, now: real): (r: real)
    requires cfg.cooldown != 0.0
    ensures cfg.cooldown > 0.0 && now >= lastFireTime ==> 0.0 <= r <= 1.0
    ensures r == 1.0 <==> CanFire(cfg, lastFireTime, now)
  {
    var remaining := CooldownRemaining(cfg, lastFireTime, now);
    assert cfg.cooldown > 0.0 && now >= lastFireTime ==> 0.0 <= remaining / cfg.cooldown <= 1.0 by {
      if cfg.cooldown > 0.0 && now >= lastFireTime {
        DivBelowOneOrEqual(remaining, cfg.cooldown);
      }
    }
    assert remaining / cfg.cooldown == 0.0 <==> remaining == 0.0;
    1.0 - remaining / cfg.cooldown
  }

  lemma DivBelowOneOrEqual(a: real, b: real)
    requires 0.0 <= a <= b && b > 0.0
    ensures 0.0 <= a / b <= 1.0
  {
    if a < b {
      DivBelowOne(a, b);
    }
  }

  /** What the fire ray hit: the point and, when the collider belongs to an
      enemy, which one. */
  datatype RayHit = RayHit(point: Vec3, enemy: Option<EnemyId>)

  /** The player holding the gun, as the rail jump sees it: its state, its
      `jumpForce` and the engine's `GetDistanceToGround()`. */
  datatype Holder = Holder(state: PlayerState, jumpForce: real, groundDistance: real)

  /** `heightFactor = (1 - clamp01(d / maxEffectiveHeight))^2`. */
  function HeightFactor(cfg: WeaponConfig, groundDistance: real): (r: real)
    requires cfg.maxEffectiveHeight != 0.0
    ensures 0.0 <= r <= 1.0
    ensures cfg.maxEffectiveHeight > 0.0 && groundDistance <= 0.0 ==> r == 1.0
    ensures cfg.maxEffectiveHeight > 0.0 && groundDistance >= cfg.maxEffectiveHeight ==> r == 0.0
  {
    var q := groundDistance / cfg.maxEffectiveHeight;
    assert cfg.maxEffectiveHeight > 0.0 && groundDistance <= 0.0 ==> q <= 0.0 by {
      if cfg.maxEffectiveHeight > 0.0 && groundDistance <= 0.0 {
        DivMonotone(groundDistance, 0.0, cfg.maxEffectiveHeight);
      }
    }
    assert cfg.maxEffectiveHeight > 0.0 && groundDistance >= cfg.maxEffectiveHeight ==> q >= 1.0 by {
      if cfg.maxEffectiveHeight > 0.0 && groundDistance >= cfg.maxEffectiveHeight {
        DivMonotone(cfg.maxEffectiveHeight, groundDistance, cfg.maxEffectiveHeight);
        assert cfg.maxEffectiveHeight / cfg.maxEffectiveHeight == 1.0;
      }
    }
    var rest := 1.0 - Clamp01(q);
    UnitProduct(rest, rest, rest * rest);
    rest * rest
  }

  /** The boost falls off with height: higher never means a larger factor. */
  lemma HeightFactorNonIncreasing(cfg: WeaponConfig, low: real, high: real)
    requires cfg.maxEffectiveHeight > 0.0 && low <= high
    ensures HeightFactor(cfg, high) <= HeightFactor(cfg, low)
  {
    DivMonotone(low, high, cfg.maxEffectiveHeight);
    Clamp01Monotone(low / cfg.maxEffectiveHeight, high / cfg.maxEffectiveHeight);
    var a := 1.0 - Clamp01(high / cfg.maxEffectiveHeight);
    var b := 1.0 - Clamp01(low / cfg.maxEffectiveHeight);
    SquareMonotone(a, b);
  }

  /** The combo multiplier: `jumpComboBonus` when jump was pressed within
      the combo window, otherwise 1. */
  function ComboMultiplier(cfg: WeaponConfig, s: PlayerState, now: real): real {
    if WasJumpPressedRecently(s, now) then cfg.jumpComboBonus else 1.0
  }

  /** The combo bonus applies exactly when the last jump press is at most
      `JumpComboWindow` (0.15 s) old. */
  lemma ComboWindow(cfg: WeaponConfig, s: PlayerState, now: real)
    ensures now - s.lastJumpPressTime <= JumpComboWindow ==> ComboMultiplier(cfg, s, now) == cfg.jumpComboBonus
    ensures now - s.lastJumpPressTime > JumpComboWindow ==> ComboMultiplier(cfg, s, now) == 1.0
  {
  }

  /** A jump press earns the combo for a shot that reads the player after
      the press was stamped, that is, when the player's `Update` ran before
      the railgun's in that frame (Unity does not fix that order; see
      `World.PressBeforeShotEarnsCombo` and `World.ShotBeforePressMissesCombo`). */
  lemma JumpAndShootCombo(cfg: WeaponConfig, move: Movement.MoveConfig, s: PlayerState, input: Intent, f: Frame)
    requires input.jumpPressed
    ensures ComboMultiplier(cfg, HandleInput(move, s, input, f), f.now) == cfg.jumpComboBonus
  {
  }

  /** The uncapped vertical push `railJumpBaseUpForce * heightFactor * combo`. */
  function RawUpForce(cfg: WeaponConfig, heightFactor: real, combo: real): (r: real)
    ensures r == cfg.railJumpBaseUpForce * heightFactor * combo
    ensures cfg.railJumpBaseUpForce >= 0.0 && heightFactor >= 0.0 && combo >= 0.0 ==> r >= 0.0
  {
    assert cfg.railJumpBaseUpForce >= 0.0 && heightFactor >= 0.0 && combo >= 0.0 ==>
      cfg.railJumpBaseUpForce * heightFactor * combo >= 0.0 by {
      if cfg.railJumpBaseUpForce >= 0.0 && heightFactor >= 0.0 && combo >= 0.0 {
        MulNonNeg(cfg.railJumpBaseUpForce, heightFactor);
        MulNonNeg(cfg.railJumpBaseUpForce * heightFactor, combo);
      }
    }
    cfg.railJumpBaseUpForce * heightFactor * combo
  }

  /** The vertical push of a rail jump: the raw push capped at three jump
      forces; when already rising, the current upward speed is subtracted
      (floored at 0) so boosts do not stack. The upward speed after the
      push is at most the larger of the current one and the cap, and when
      the raw push and the jump force are non-negative the push is between
      0 and the cap. */
  function UpForce(raw: real, jumpForce: real, vy: real): (r: real)
    ensures r <= Max(0.0, jumpForce * UpForceCapJumps)
    ensures vy + r <= Max(vy, jumpForce * UpForceCapJumps)
    ensures vy > 0.0 ==> r >= 0.0
    ensures vy > 0.0 && vy < Min(raw, jumpForce * UpForceCapJumps) ==>
      vy + r == Min(raw, jumpForce * UpForceCapJumps)
    ensures vy > 0.0 && vy >= Min(raw, jumpForce * UpForceCapJumps) ==> r == 0.0
    ensures vy <= 0.0 ==> r == Min(raw, jumpForce * UpForceCapJumps)
    ensures raw >= 0.0 && jumpForce >= 0.0 ==> 0.0 <= r
  {
    var capped := Min(raw, jumpForce * UpForceCapJumps);
    if vy > 0.0 then Max(0.0, capped - vy) else capped
  }

  /** The direction the rail jump pushes: from the hit point towards the
      player, normalized. */
  function PushDirection(playerPosition: Vec3, hitPoint: Vec3, mag: Magnitude): (d: Vec3)
    ensures var away := Sub(playerPosition, hitPoint);
      && Dot(d, away) >= 0.0
      && Cross(d, away) == Zero
      && (ExactAt(mag, away) && mag(away) > NormalizeEpsilon ==> SqMag(d) == 1.0)
  {
    var away := Sub(playerPosition, hitPoint);
    if mag(away) > NormalizeEpsilon then Normalized(mag, away)
    else
      assert Normalized(mag, away) == Zero;
      Normalized(mag, away)
  }

  /** The vertical part of a rail jump for this holder: the height falloff
      and the combo bonus applied to the base push, then capped. The
      upward speed after it never exceeds the larger of the current one
      and three jump forces. */
  function RailUpForce(cfg: WeaponConfig, holder: Holder, now: real): (up: real)
    requires cfg.maxEffectiveHeight != 0.0
    ensures holder.state.velocity.y + up
      <= Max(holder.state.velocity.y, holder.jumpForce * UpForceCapJumps)
  {
    UpForce(RawUpForce(cfg, HeightFactor(cfg, holder.groundDistance),
                       ComboMultiplier(cfg, holder.state, now)),
            holder.jumpForce, holder.state.velocity.y)
  }

  /** The rail-jump impulse for a hit at `hitPoint`: apart from the
      vertical `RailUpForce`, it points straight away from the hit (parallel
      to the line from the hit to the player, on the player's side) with
      length `railJumpForce`, and it is purely vertical when the hit is at
      the player's own position. */
  function RailJumpImpulse(cfg: WeaponConfig, holder: Holder, hitPoint: Vec3, now: real,
                           mag: Magnitude): (impulse: Vec3)
    requires cfg.maxEffectiveHeight != 0.0
    ensures var away := Sub(holder.state.position, hitPoint);
      var push := Sub(impulse, Scale(Up, RailUpForce(cfg, holder, now)));
      && Cross(push, away) == Zero
      && (cfg.railJumpForce >= 0.0 ==> Dot(push, away) >= 0.0)
      && (ExactAt(mag, away) && mag(away) > NormalizeEpsilon ==>
            SqMag(push) == cfg.railJumpForce * cfg.railJumpForce)
      && (mag(away) <= NormalizeEpsilon ==> impulse == Scale(Up, RailUpForce(cfg, holder, now)))
  {
    var up := RailUpForce(cfg, holder, now);
    var dir := PushDirection(holder.state.position, hitPoint, mag);
    ImpulseSplit(dir, cfg.railJumpForce, up, Sub(holder.state.position, hitPoint));
    Add(Scale(dir, cfg.railJumpForce), Scale(Up, up))
  }

  /** A push along `dir` plus a vertical part: taking the vertical part off
      again leaves a push that keeps `dir`'s alignment with `away`, scaled. */
  lemma ImpulseSplit(dir: Vec3, force: real, up: real, away: Vec3)
    requires Cross(dir, away) == Zero && Dot(dir, away) >= 0.0
    ensures var push := Sub(Add(Scale(dir, force), Scale(Up, up)), Scale(Up, up));
      && push == Scale(dir, force)
      && Cross(push, away) == Zero
      && (force >= 0.0 ==> Dot(push, away) >= 0.0)
      && SqMag(push) == force * force * SqMag(dir)
  {
    CrossScale(dir, force, away);
    DotScale(dir, force, away);
    if force >= 0.0 {
      MulNonNeg(force, Dot(dir, away));
    }
    SqMagScale(dir, force);
  }

  /** The effect of one pull of the trigger: the new `lastFireTime`,
      whether a shot went off, the enemy it killed and the impulse handed
      to the player's `AddVelocity`. */
  datatype Shot = Shot(lastFireTime: real, fired: bool, killed: Option<EnemyId>,
                       impulse: Option<Vec3>)

  /** `Fire`: record the time; a hit on an enemy kills it; a hit within
      `railJumpRadius` of the player rail-jumps it. */
  function Fire(cfg: WeaponConfig, now: real, hit: Option<RayHit>, holder: Option<Holder>,
                mag: Magnitude): (r: Shot)
    requires cfg.maxEffectiveHeight != 0.0
    ensures r.fired && r.lastFireTime == now
    ensures r.killed.Some? <==> hit.Some? && hit.value.enemy.Some?
    ensures r.killed.Some? ==> r.killed == hit.value.enemy
    ensures r.impulse.Some? <==>
      hit.Some? && holder.Some? && mag(Sub(holder.value.state.position, hit.value.point)) <= cfg.railJumpRadius
    ensures r.impulse.Some? ==>
      r.impulse.value == RailJumpImpulse(cfg, holder.value, hit.value.point, now, mag)
  {
    match hit
    case None => Shot(now, true, None, None)
    case Some(h) =>
      var impulse :=
        if holder.Some? && mag(Sub(holder.value.state.position, h.point)) <= cfg.railJumpRadius
        then Some(RailJumpImpulse(cfg, holder.value, h.point, now, mag))
        else None;
      Shot(now, true, h.enemy, impulse)
  }

  /** `TryFire`: nothing at all happens while the gun is cooling down. */
  function TryFire(cfg: WeaponConfig, lastFireTime: real, now: real, hit: Option<RayHit>,
                   holder: Option<Holder>, mag: Magnitude): (r: Shot)
    requires cfg.maxEffectiveHeight != 0.0
    ensures r.fired <==> CanFire(cfg, lastFireTime, now)
    ensures !r.fired ==> r == Shot(lastFireTime, false, None, None)
    ensures r.fired ==> r == Fire(cfg, now, hit, holder, mag)
  {
    if !CanFire(cfg, lastFireTime, now) then Shot(lastFireTime, false, None, None)
    else Fire(cfg, now, hit, holder, mag)
  }

  /** `Railgun.Update`: no shot while paused, while the holder is dead, or
      without a click this frame. */
  function Trigger(cfg: WeaponConfig, lastFireTime: real, now: real, paused: bool, clicked: bool,
                   hit: Option<RayHit>, holder: Option<Holder>, mag: Magnitude): (r: Shot)
    requires cfg.maxEffectiveHeight != 0.0
    ensures paused || !clicked || (holder.Some? && holder.value.state.isDead) ==>
      r == Shot(lastFireTime, false, None, None)
    ensures !paused && clicked && !(holder.Some? && holder.value.state.isDead) ==>
      r == TryFire(cfg, lastFireTime, now, hit, holder, mag)
  {
    if paused || (holder.Some? && holder.value.state.isDead) || !clicked then
      Shot(lastFireTime, false, None, None)
    else
      TryFire(cfg, lastFireTime, now, hit, holder, mag)
  }

  /** With a positive cooldown a second trigger pull in the same instant
      never fires, whatever the first one did. */
  lemma NoDoubleShot(cfg: WeaponConfig, lastFireTime: real, now: real,
                     hit1: Option<RayHit>, holder1: Option<Holder>,
                     hit2: Option<RayHit>, holder2: Option<Holder>, mag: Magnitude)
    requires cfg.maxEffectiveHeight != 0.0 && cfg.cooldown > 0.0
    ensures var first := TryFire(cfg, lastFireTime, now, hit1, holder1, mag);
      var second := TryFire(cfg, first.lastFireTime, now, hit2, holder2, mag);
      !second.fired && second.lastFireTime == first.lastFireTime
  {
  }

  /** Once a shot has gone off, the gun is ready again exactly after
      `cooldown` seconds. */
  lemma ReadyAfterCooldown(cfg: WeaponConfig, lastFireTime: real, now: real, later: real,
                           hit: Option<RayHit>, holder: Option<Holder>, mag: Magnitude)
    requires cfg.maxEffectiveHeight != 0.0 && CanFire(cfg, lastFireTime, now)
    ensures var shot := TryFire(cfg, lastFireTime, now, hit, holder, mag);
      CanFire(cfg, shot.lastFireTime, later) <==> later >= now + cfg.cooldown
  {
  }

  /** With a valid configuration and a non-negative jump force, the
      vertical push of a rail jump lies in `[0, 3 * jumpForce]` whatever
      the height, the combo and the current vertical speed. */
  lemma UpForceBounds(cfg: WeaponConfig, holder: Holder, now: real)
    requires cfg.Valid() && holder.jumpForce >= 0.0
    ensures 0.0 <= RailUpForce(cfg, holder, now) <= holder.jumpForce * UpForceCapJumps
  {
    var hf := HeightFactor(cfg, holder.groundDistance);
    var combo := ComboMultiplier(cfg, holder.state, now);
    assert combo >= 0.0;
    MulNonNeg(holder.jumpForce, UpForceCapJumps);
  }

  /** A shot from the ground (distance 0 or less) while not rising, with the
      jump pressed within the combo window, pushes up with the full base
      force times the combo bonus, capped at three jump forces. */
  lemma GroundedComboUpForce(cfg: WeaponConfig, holder: Holder, now: real)
    requires cfg.maxEffectiveHeight > 0.0
    requires holder.groundDistance <= 0.0 && holder.state.velocity.y <= 0.0
    requires WasJumpPressedRecently(holder.state, now)
    ensures RailUpForce(cfg, holder, now)
         == Min(cfg.railJumpBaseUpForce * cfg.jumpComboBonus, holder.jumpForce * UpForceCapJumps)
  {
    assert HeightFactor(cfg, holder.groundDistance) == 1.0;
    assert cfg.railJumpBaseUpForce * 1.0 * cfg.jumpComboBonus
        == cfg.railJumpBaseUpForce * cfg.jumpComboBonus;
  }

  /** At or above `maxEffectiveHeight` the height factor is 0, so a player
      who is not rising gets no vertical push at all. */
  lemma HighShotNoLift(cfg: WeaponConfig, holder: Holder, now: real)
    requires cfg.maxEffectiveHeight > 0.0
    requires holder.groundDistance >= cfg.maxEffectiveHeight && holder.state.velocity.y <= 0.0
    ensures RailUpForce(cfg, holder, now) == Min(0.0, holder.jumpForce * UpForceCapJumps)
    ensures holder.jumpForce >= 0.0 ==> RailUpForce(cfg, holder, now) == 0.0
  {
    var combo := ComboMultiplier(cfg, holder.state, now);
    assert HeightFactor(cfg, holder.groundDistance) == 0.0;
    assert cfg.railJumpBaseUpForce * 0.0 * combo == 0.0;
  }

  /** The higher the player is above the ground, the smaller the vertical
      push of a rail jump (all else equal). */
  lemma UpForceNonIncreasingInHeight(cfg: WeaponConfig, holder: Holder, high: real, now: real)
    requires cfg.Valid() && holder.groundDistance <= high
    ensures RailUpForce(cfg, holder.(groundDistance := high), now) <= RailUpForce(cfg, holder, now)
  {
    var hl := HeightFactor(cfg, holder.groundDistance);
    var hh := HeightFactor(cfg, high);
    var combo := ComboMultiplier(cfg, holder.state, now);
    var base := cfg.railJumpBaseUpForce;
    HeightFactorNonIncreasing(cfg, holder.groundDistance, high);
    assert combo >= 0.0;
    MulNonNeg(base, combo);
    assert RawUpForce(cfg, hh, combo) <= RawUpForce(cfg, hl, combo) by {
      RawMonotone(base, combo, hh, hl);
      assert RawUpForce(cfg, hh, combo) == base * hh * combo;
      assert RawUpForce(cfg, hl, combo) == base * hl * combo;
    }
    UpForceMonotone(RawUpForce(cfg, hh, combo), RawUpForce(cfg, hl, combo),
                    holder.jumpForce, holder.state.velocity.y);
  }

  /** `base * h * combo` grows with `h` for non-negative `base` and `combo`. */
  lemma RawMonotone(base: real, combo: real, low: real, high: real)
    requires 0.0 <= base && 0.0 <= combo && low <= high
    ensures base * low * combo <= base * high * combo
  {
    MulLeRight(low, high, base * combo);
    assert base * low * combo == low * (base * combo);
    assert base * high * combo == high * (base * combo);
  }

  /** A larger raw push never gives a smaller capped push. */
  lemma UpForceMonotone(low: real, high: real, jumpForce: real, vy: real)
    requires low <= high
    ensures UpForce(low, jumpForce, vy) <= UpForce(high, jumpForce, vy)
  {
  }
}

=== FILE: spawning.dfy ===
/** The bot population (`SpawnManager`): keeps at most `maxEnemies` bots
    alive, picks spawn points away from the player, schedules a respawn for
    every death and picks the safest point for the player to respawn at.

    Bots are identified by `EnemyId`s handed out in order. `Random.Range`
    draws are parameters; the respawn timer (`Invoke`) is a list of due
    times. */
module Spawning {
  import opened Base
  import opened Vectors

  datatype SpawnConfig = SpawnConfig(maxEnemies: int, respawnDelay: real, minSpawnDistance: real)

  /** The field initialisers of `SpawnManager`. */
  const Defaults: SpawnConfig := SpawnConfig(5, 2.0, 15.0)

  /** The fallback spawn area is `[-20, 20]` on x and z ... */
  const ArenaHalfWidth: real := 20.0

  /** ... at this height. */
  const FallbackHeight: real := 1.0

  /** The fallback redraws at most this many times. */
  const MaxRedraws: nat := 10

  /** `float.MaxValue`, the starting minimum in `GetPlayerSpawnPosition`. */
  const FloatMax: real := 340282346638528859811704183484516925440.0

  /** Where the player respawns when there are no spawn points. */
  const PlayerFallback: Vec3 := Vec3(0.0, 1.0, 0.0)

  /** The manager's state: spawn points, the active bots in spawn order,
      `enemiesKilledCount`, the next id to hand out and the due times of
      pending respawns. */
  datatype Spawner = Spawner(
    points: seq<Vec3>,
    active: seq<EnemyId>,
    killedCount: nat,
    nextId: EnemyId,
    pending: seq<real>)

  /** A manager before `Start`: no bots, nothing killed, nothing pending. */
  function Fresh(points: seq<Vec3>): (sp: Spawner)
    ensures sp.points == points && sp.active == [] && sp.killedCount == 0 && sp.pending == []
  {
    Spawner(points, [], 0, 0, [])
  }

  /** Every active id was handed out, and none is listed twice. */
  predicate Tracked(sp: Spawner) {
    && (forall id :: id in sp.active ==> id < sp.nextId)
    && Distinct(sp.active)
  }

  /** No id is listed twice. */
  predicate Distinct(s: seq<EnemyId>) {
    forall i, j :: 0 <= i < j < |s| ==> s[i] != s[j]
  }

  /** `Random.Range(0, n)` on integers: some index below `n`. */
  function Pick(draw: nat, n: nat): (i: nat)
    requires n > 0
    ensures i < n
  {
    draw % n
  }

  // ---------------------------------------------------------------- spawn position

  /** `point` is an acceptable bot spawn: there is no player, or it is at
      least `minSpawnDistance` from the player. */
  predicate FarFromPlayer(cfg: SpawnConfig, point: Vec3, player: Option<Vec3>, mag: Magnitude) {
    player.None? || mag(Sub(point, player.value)) >= cfg.minSpawnDistance
  }

  /** The `validPoints` list: the far-enough spawn points, in order. */
  function ValidPoints(cfg: SpawnConfig, points: seq<Vec3>, player: Option<Vec3>, mag: Magnitude)
    : (valid: seq<Vec3>)
    ensures forall q :: q in valid ==> q in points && FarFromPlayer(cfg, q, player, mag)
    ensures forall q :: q in points && FarFromPlayer(cfg, q, player, mag) ==> q in valid
    ensures |valid| <= |points|
  {
    if |points| == 0 then []
    else
      var rest := ValidPoints(cfg, points[1..], player, mag);
      assert forall q :: q in points[1..] ==> q in points;
      if FarFromPlayer(cfg, points[0], player, mag) then [points[0]] + rest else rest
  }

  /** The two coordinates of one fallback draw. */
  datatype FlatDraw = FlatDraw(x: real, z: real)

  predicate InArena(d: FlatDraw) {
    -ArenaHalfWidth <= d.x <= ArenaHalfWidth && -ArenaHalfWidth <= d.z <= ArenaHalfWidth
  }

  function FallbackPoint(d: FlatDraw): Vec3 {
    Vec3(d.x, FallbackHeight, d.z)
  }

  /** The fallback loop from `attempts` redraws on: the index of the draw it
      settles on. It stops at the first far-enough draw or after
      `MaxRedraws` redraws, whichever comes first. */
  function FallbackFrom(cfg: SpawnConfig, player: Option<Vec3>, draws: nat -> FlatDraw, attempts: nat,
                        mag: Magnitude): (k: nat)
    requires attempts <= MaxRedraws
    ensures attempts <= k <= MaxRedraws
    ensures FarFromPlayer(cfg, FallbackPoint(draws(k)), player, mag) || k == MaxRedraws
    ensures forall i :: attempts <= i < k ==> !FarFromPlayer(cfg, FallbackPoint(draws(i)), player, mag)
    decreases MaxRedraws - attempts
  {
    if !FarFromPlayer(cfg, FallbackPoint(draws(attempts)), player, mag) && attempts < MaxRedraws then
      FallbackFrom(cfg, player, draws, attempts + 1, mag)
    else attempts
  }

  /** The fallback loop as the source writes it. */
  method FallbackPosition(cfg: SpawnConfig, player: Option<Vec3>, draws: nat -> FlatDraw, mag: Magnitude)
    returns (position: Vec3, redraws: nat)
    ensures redraws == FallbackFrom(cfg, player, draws, 0, mag)
    ensures position == FallbackPoint(draws(redraws))
    ensures position.y == FallbackHeight && redraws <= MaxRedraws
    ensures (forall i :: InArena(draws(i))) ==>
      -ArenaHalfWidth <= position.x <= ArenaHalfWidth && -ArenaHalfWidth <= position.z <= ArenaHalfWidth
  {
    position := FallbackPoint(draws(0));
    redraws := 0;
    if player.Some? {
      while mag(Sub(position, player.value)) < cfg.minSpawnDistance && redraws < MaxRedraws
        invariant redraws <= MaxRedraws
        invariant position == FallbackPoint(draws(redraws))
        invariant FallbackFrom(cfg, player, draws, redraws, mag) == FallbackFrom(cfg, player, draws, 0, mag)
        decreases MaxRedraws - redraws
      {
        redraws := redraws + 1;
        position := FallbackPoint(draws(redraws));
      }
    }
  }

  /** `GetSpawnPosition`: a random far-enough spawn point, else a random
      spawn point, else the fallback draw. */
  function SpawnPosition(cfg: SpawnConfig, points: seq<Vec3>, player: Option<Vec3>, pick: nat,
                         draws: nat -> FlatDraw, mag: Magnitude): (position: Vec3)
    ensures |points| > 0 ==> position in points
    ensures (exists q :: q in points && FarFromPlayer(cfg, q, player, mag)) ==>
      FarFromPlayer(cfg, position, player, mag)
    ensures |points| == 0 ==>
      position == FallbackPoint(draws(FallbackFrom(cfg, player, draws, 0, mag)))
  {
    if |points| > 0 then
      var valid := ValidPoints(cfg, points, player, mag);
      if |valid| > 0 then valid[Pick(pick, |valid|)]
      else points[Pick(pick, |points|)]
    else
      FallbackPoint(draws(FallbackFrom(cfg, player, draws, 0, mag)))
  }

  /** With no spawn points the bot lands at height 1 inside the arena square
      (when the draws are), far enough from the player unless all ten
      redraws were used up. */
  lemma FallbackSpawnInArena(cfg: SpawnConfig, player: Option<Vec3>, pick: nat, draws: nat -> FlatDraw,
                             mag: Magnitude)
    requires forall i :: InArena(draws(i))
    ensures var p := SpawnPosition(cfg, [], player, pick, draws, mag);
      && p.y == FallbackHeight
      && -ArenaHalfWidth <= p.x <= ArenaHalfWidth && -ArenaHalfWidth <= p.z <= ArenaHalfWidth
      && (FarFromPlayer(cfg, p, player, mag) || FallbackFrom(cfg, player, draws, 0, mag) == MaxRedraws)
  {
    var k := FallbackFrom(cfg, player, draws, 0, mag);
    assert InArena(draws(k));
  }

  // ---------------------------------------------------------------- spawning

  /** A bot created by `SpawnEnemy`. */
  datatype NewEnemy = NewEnemy(id: EnemyId, position: Vec3)

  datatype SpawnOutcome = SpawnOutcome(spawner: Spawner, spawned: Option<NewEnemy>)

  /** `SpawnEnemy`: nothing at the cap; otherwise one new bot with a fresh
      id joins the active list. */
  function SpawnEnemy(cfg: SpawnConfig, sp: Spawner, player: Option<Vec3>, pick: nat,
                      draws: nat -> FlatDraw, mag: Magnitude): (r: SpawnOutcome)
    ensures |sp.active| >= cfg.maxEnemies ==> r == SpawnOutcome(sp, None)
    ensures |sp.active| < cfg.maxEnemies ==>
      && r.spawned == Some(NewEnemy(sp.nextId, SpawnPosition(cfg, sp.points, player, pick, draws, mag)))
      && r.spawner == sp.(active := sp.active + [sp.nextId], nextId := sp.nextId + 1)
    ensures |sp.active| <= cfg.maxEnemies ==> |r.spawner.active| <= cfg.maxEnemies
    ensures Tracked(sp) ==> Tracked(r.spawner)
  {
    if |sp.active| >= cfg.maxEnemies then SpawnOutcome(sp, None)
    else
      var position := SpawnPosition(cfg, sp.points, player, pick, draws, mag);
      assert Tracked(sp) ==> Distinct(sp.active + [sp.nextId]) by {
        if Tracked(sp) {
          AppendFresh(sp.active, sp.nextId);
        }
      }
      SpawnOutcome(sp.(active := sp.active + [sp.nextId], nextId := sp.nextId + 1),
                   Some(NewEnemy(sp.nextId, position)))
  }

  /** Appending an id not yet listed keeps a list duplicate-free. */
  lemma AppendFresh(s: seq<EnemyId>, x: EnemyId)
    requires Distinct(s) && x !in s
    ensures Distinct(s + [x])
  {
    forall i, j | 0 <= i < j < |s| + 1
      ensures (s + [x])[i] != (s + [x])[j]
    {
      if j == |s| {
        assert (s + [x])[i] == s[i];
      }
    }
  }

  /** `SpawnInitialEnemies`: `maxEnemies` calls of `SpawnEnemy`; from an
      empty arena this fills it to exactly `maxEnemies` bots. */
  method SpawnInitialEnemies(cfg: SpawnConfig, sp: Spawner, player: Option<Vec3>, picks: nat -> nat,
                             draws: nat -> (nat -> FlatDraw), mag: Magnitude)
    returns (r: Spawner, spawned: seq<NewEnemy>)
    ensures |r.active| == if |sp.active| >= cfg.maxEnemies then |sp.active| else cfg.maxEnemies
    ensures sp.active == [] && cfg.maxEnemies >= 0 ==> |r.active| == cfg.maxEnemies
    ensures r.active[..|sp.active|] == sp.active
    ensures |spawned| == |r.active| - |sp.active|
    ensures forall i :: 0 <= i < |spawned| ==> spawned[i].id == sp.nextId + i
    ensures r.active[|sp.active|..] == seq(|spawned|, i requires 0 <= i < |spawned| => spawned[i].id)
    ensures Tracked(sp) ==> Tracked(r)
    ensures r.points == sp.points && r.killedCount == sp.killedCount && r.pending == sp.pending
  {
    r := sp;
    spawned := [];
    var i := 0;
    while i < cfg.maxEnemies
      invariant 0 <= i && (cfg.maxEnemies >= 0 ==> i <= cfg.maxEnemies)
      invariant |r.active| == if |sp.active| >= cfg.maxEnemies then |sp.active|
                              else if |sp.active| + i < cfg.maxEnemies then |sp.active| + i
                              else cfg.maxEnemies
      invariant r.active[..|sp.active|] == sp.active
      invariant |spawned| == |r.active| - |sp.active|
      invariant r.nextId == sp.nextId + |spawned|
      invariant forall k :: 0 <= k < |spawned| ==> spawned[k].id == sp.nextId + k
      invariant r.active[|sp.active|..] == seq(|spawned|, k requires 0 <= k < |spawned| => spawned[k].id)
      invariant Tracked(sp) ==> Tracked(r)
      invariant r.points == sp.points && r.killedCount == sp.killedCount && r.pending == sp.pending
    {
      var outcome := SpawnEnemy(cfg, r, player, picks(i), draws(i), mag);
      if outcome.spawned.Some? {
        assert (r.active + [r.nextId])[..|sp.active|] == r.active[..|sp.active|];
        assert (r.active + [r.nextId])[|sp.active|..] == r.active[|sp.active|..] + [r.nextId];
        spawned := spawned + [outcome.spawned.value];
      }
      r := outcome.spawner;
      i := i + 1;
    }
  }

  // ---------------------------------------------------------------- deaths

  /** `List.Remove`: drop the first occurrence of `x`, if any. */
  function RemoveFirst(s: seq<EnemyId>, x: EnemyId): (r: seq<EnemyId>)
    ensures x !in s ==> r == s
    ensures x in s ==> |r| == |s| - 1
    ensures multiset(r) == multiset(s) - multiset{x}
  {
    if |s| == 0 then []
    else if s[0] == x then
      assert s == [s[0]] + s[1..];
      s[1..]
    else
      var rest := RemoveFirst(s[1..], x);
      assert s == [s[0]] + s[1..];
      [s[0]] + rest
  }

  /** Removal touches no other id: every other id is listed afterwards
      exactly when it was before, and nothing new appears. */
  lemma RemoveFirstKeepsOthers(s: seq<EnemyId>, x: EnemyId)
    ensures forall y :: y in RemoveFirst(s, x) ==> y in s
    ensures forall y :: y != x ==> (y in RemoveFirst(s, x) <==> y in s)
  {
    var r := RemoveFirst(s, x);
    forall y
      ensures y in r ==> y in s
      ensures y != x ==> (y in r <==> y in s)
    {
      assert y in r <==> multiset(r)[y] > 0;
      assert y in s <==> multiset(s)[y] > 0;
    }
  }

  /** Removal keeps a duplicate-free list duplicate-free, and the removed id
      is then gone. */
  lemma {:induction false} RemoveFirstDistinct(s: seq<EnemyId>, x: EnemyId)
    requires Distinct(s)
    ensures x !in RemoveFirst(s, x) && Distinct(RemoveFirst(s, x))
    decreases |s|
  {
    if |s| > 0 {
      TailDistinct(s);
      if s[0] != x {
        RemoveFirstDistinct(s[1..], x);
        RemoveFirstKeepsOthers(s[1..], x);
        ConsDistinct(s[0], RemoveFirst(s[1..], x));
      }
    }
  }

  /** The tail of a duplicate-free list is duplicate-free and lacks the head. */
  lemma TailDistinct(s: seq<EnemyId>)
    requires Distinct(s) && |s| > 0
    ensures Distinct(s[1..]) && s[0] !in s[1..]
  {
    forall i, j | 0 <= i < j < |s[1..]|
      ensures s[1..][i] != s[1..][j]
    {
      assert s[1..][i] == s[i + 1] && s[1..][j] == s[j + 1];
    }
    forall k | 0 <= k < |s[1..]|
      ensures s[1..][k] != s[0]
    {
      assert s[1..][k] == s[k + 1];
    }
  }

  /** A fresh head on a duplicate-free list keeps it duplicate-free. */
  lemma ConsDistinct(a: EnemyId, t: seq<EnemyId>)
    requires Distinct(t) && a !in t
    ensures Distinct([a] + t)
  {
    forall i, j | 0 <= i < j < |t| + 1
      ensures ([a] + t)[i] != ([a] + t)[j]
    {
      assert ([a] + t)[j] == t[j - 1];
      if i > 0 {
        assert ([a] + t)[i] == t[i - 1];
      }
    }
  }

  /** `OnEnemyDied`: forget the bot, count the kill and schedule one
      respawn `respawnDelay` from now. */
  function OnEnemyDied(cfg: SpawnConfig, sp: Spawner, id: EnemyId, now: real): (r: Spawner)
    ensures r.killedCount == sp.killedCount + 1
    ensures r.pending == sp.pending + [now + cfg.respawnDelay]
    ensures multiset(r.active) == multiset(sp.active) - multiset{id}
    ensures id in sp.active ==> |r.active| == |sp.active| - 1
    ensures id !in sp.active ==> r.active == sp.active
    ensures forall other :: other != id ==> (other in r.active <==> other in sp.active)
    ensures r.points == sp.points && r.nextId == sp.nextId
    ensures Tracked(sp) ==> Tracked(r) && id !in r.active
  {
    var active := RemoveFirst(sp.active, id);
    RemoveFirstKeepsOthers(sp.active, id);
    assert Distinct(sp.active) ==> id !in active && Distinct(active) by {
      if Distinct(sp.active) {
        RemoveFirstDistinct(sp.active, id);
      }
    }
    sp.(active := active, killedCount := sp.killedCount + 1,
        pending := sp.pending + [now + cfg.respawnDelay])
  }

  /** The pending respawn scheduled first fires once its time has come:
      it is taken off the list and `SpawnEnemy` runs. */
  function FireRespawnTimer(cfg: SpawnConfig, sp: Spawner, now: real, player: Option<Vec3>, pick: nat,
                            draws: nat -> FlatDraw, mag: Magnitude): (r: SpawnOutcome)
    ensures |sp.pending| == 0 || sp.pending[0] > now ==> r == SpawnOutcome(sp, None)
    ensures |sp.pending| > 0 && sp.pending[0] <= now ==>
      r == SpawnEnemy(cfg, sp.(pending := sp.pending[1..]), player, pick, draws, mag)
    ensures |sp.active| <= cfg.maxEnemies ==> |r.spawner.active| <= cfg.maxEnemies
    ensures Tracked(sp) ==> Tracked(r.spawner)
  {
    if |sp.pending| > 0 && sp.pending[0] <= now then
      SpawnEnemy(cfg, sp.(pending := sp.pending[1..]), player, pick, draws, mag)
    else SpawnOutcome(sp, None)
  }

  // ---------------------------------------------------------------- player spawn

  /** The inner loop of `GetPlayerSpawnPosition` from a running minimum
      `acc`: the smallest distance from `point` to a live bot, never above
      `acc`. Destroyed bots (`None`) are skipped. */
  function ClearanceFrom(point: Vec3, bots: seq<Option<Vec3>>, acc: real, mag: Magnitude): (r: real)
    ensures r <= acc
    ensures forall k :: 0 <= k < |bots| && bots[k].Some? ==> r <= mag(Sub(point, bots[k].value))
    ensures r == acc || exists k :: 0 <= k < |bots| && bots[k].Some? && r == mag(Sub(point, bots[k].value))
    decreases |bots|
  {
    if |bots| == 0 then acc
    else
      var next := if bots[0].Some? && mag(Sub(point, bots[0].value)) < acc
                  then mag(Sub(point, bots[0].value)) else acc;
      var r := ClearanceFrom(point, bots[1..], next, mag);
      assert forall k :: 1 <= k < |bots| ==> bots[k] == bots[1..][k - 1];
      r
  }

  /** `minDistToEnemy` for one spawn point. */
  function Clearance(point: Vec3, bots: seq<Option<Vec3>>, mag: Magnitude): real {
    ClearanceFrom(point, bots, FloatMax, mag)
  }

  /** With no live bot every point's clearance is `float.MaxValue`. */
  lemma {:induction false} ClearanceWithoutBots(point: Vec3, bots: seq<Option<Vec3>>, acc: real, mag: Magnitude)
    requires forall k :: 0 <= k < |bots| ==> bots[k].None?
    ensures ClearanceFrom(point, bots, acc, mag) == acc
    decreases |bots|
  {
    if |bots| > 0 {
      assert forall k :: 0 <= k < |bots[1..]| ==> bots[1..][k] == bots[k + 1];
      ClearanceWithoutBots(point, bots[1..], acc, mag);
    }
  }

  /** The outer loop of `GetPlayerSpawnPosition` over the clearances: the
      running best starts at index 0 with distance 0 and is replaced only by
      a strictly larger clearance. */
  method FirstBest(scores: seq<real>) returns (best: nat)
    requires |scores| > 0
    ensures best < |scores|
    ensures forall j :: 0 <= j < |scores| ==> scores[j] <= Max(scores[best], 0.0)
    ensures forall j :: 0 <= j < best ==> scores[j] < scores[best]
    ensures best > 0 ==> scores[best] > 0.0
  {
    best := 0;
    var bestDistance := 0.0;
    var i := 0;
    while i < |scores|
      invariant 0 <= i <= |scores| && best < |scores|
      invariant bestDistance >= 0.0
      invariant bestDistance == 0.0 || bestDistance == scores[best]
      invariant best > 0 ==> bestDistance == scores[best] > 0.0
      invariant forall j :: 0 <= j < i ==> scores[j] <= bestDistance
      invariant forall j :: 0 <= j < best ==> scores[j] < scores[best]
      invariant best < i || best == 0
    {
      if scores[i] > bestDistance {
        bestDistance := scores[i];
        best := i;
      }
      i := i + 1;
    }
  }

  /** `GetPlayerSpawnPosition`: the spawn point farthest from its nearest
      live bot, the earliest one on ties (the comparison is strict), the
      first point when no point beats a clearance of 0, and `(0, 1, 0)`
      without spawn points. */
  method GetPlayerSpawnPosition(points: seq<Vec3>, bots: seq<Option<Vec3>>, mag: Magnitude)
    returns (position: Vec3, best: nat)
    ensures |points| == 0 ==> position == PlayerFallback && best == 0
    ensures |points| > 0 ==> best < |points| && position == points[best]
    ensures forall j :: 0 <= j < |points| ==>
      Clearance(points[j], bots, mag) <= Max(Clearance(points[best], bots, mag), 0.0)
    ensures forall j :: 0 <= j < best ==> Clearance(points[j], bots, mag) < Clearance(points[best], bots, mag)
    ensures best > 0 ==> Clearance(points[best], bots, mag) > 0.0
    ensures (forall k :: 0 <= k < |bots| ==> bots[k].None?) ==> best == 0
  {
    if |points| == 0 {
      return PlayerFallback, 0;
    }
    var scores := seq(|points|, j requires 0 <= j < |points| => Clearance(points[j], bots, mag));
    assert forall j :: 0 <= j < |points| ==> scores[j] == Clearance(points[j], bots, mag);
    best := FirstBest(scores);
    position := points[best];
    if forall k :: 0 <= k < |bots| ==> bots[k].None? {
      ClearanceWithoutBots(points[0], bots, FloatMax, mag);
      ClearanceWithoutBots(points[best], bots, FloatMax, mag);
    }
  }

  /** `AddSpawnPoint`: one point appended; earlier points keep their order. */
  function AddSpawnPoint(sp: Spawner, position: Vec3): (r: Spawner)
    ensures |r.points| == |sp.points| + 1
    ensures r.points[..|sp.points|] == sp.points && r.points[|sp.points|] == position
    ensures r.active == sp.active && r.killedCount == sp.killedCount
    ensures r.nextId == sp.nextId && r.pending == sp.pending
  {
    sp.(points := sp.points + [position])
  }
}

=== FILE: vectors.dfy ===
/** Three-dimensional vectors over the reals, standing in for Unity's
    `Vector3`. Dafny's reals have no square root, so the engine's
    `magnitude` is an oracle `mag` handed in by the caller; a contract that
    needs the oracle to be the true Euclidean length says so with `IsExact`. */
module Vectors {

  datatype Vec3 = Vec3(x: real, y: real, z: real)

  const Zero: Vec3 := Vec3(0.0, 0.0, 0.0)

  /** `Vector3.up`. */
  const Up: Vec3 := Vec3(0.0, 1.0, 0.0)

  /** Unity's `Vector3.kEpsilon`: `normalized` returns zero at or below it. */
  const NormalizeEpsilon: real := 0.00001

  function Add(a: Vec3, b: Vec3): Vec3 {
    Vec3(a.x + b.x, a.y + b.y, a.z + b.z)
  }

  function Sub(a: Vec3, b: Vec3): Vec3 {
    Vec3(a.x - b.x, a.y - b.y, a.z - b.z)
  }

  function Scale(a: Vec3, k: real): Vec3 {
    Vec3(a.x * k, a.y * k, a.z * k)
  }

  function Dot(a: Vec3, b: Vec3): real {
    a.x * b.x + a.y * b.y + a.z * b.z
  }

  /** `Vector3.sqrMagnitude`. */
  function SqMag(a: Vec3): real {
    Dot(a, a)
  }

  /** The horizontal part `new Vector3(v.x, 0, v.z)`. */
  function Flat(a: Vec3): Vec3 {
    Vec3(a.x, 0.0, a.z)
  }

  /** `Vector3.Cross(a, b)`. */
  function Cross(a: Vec3, b: Vec3): Vec3 {
    Vec3(a.y * b.z - a.z * b.y, a.z * b.x - a.x * b.z, a.x * b.y - a.y * b.x)
  }

  /** The engine's `magnitude` (and `Vector3.Distance(a, b) == mag(a - b)`). */
  type Magnitude = Vec3 -> real

  /** The oracle gives the true Euclidean length of `v`. */
  ghost predicate ExactAt(mag: Magnitude, v: Vec3) {
    0.0 <= mag(v) && mag(v) * mag(v) == SqMag(v)
  }

  /** The oracle gives the true Euclidean length everywhere. */
  ghost predicate IsExact(mag: Magnitude) {
    forall v :: ExactAt(mag, v)
  }

  /** `v.normalized`: `v / |v|`, or the zero vector when `|v| <= kEpsilon`. */
  function Normalized(mag: Magnitude, v: Vec3): (r: Vec3)
    ensures mag(v) <= NormalizeEpsilon ==> r == Zero
    ensures ExactAt(mag, v) && mag(v) > NormalizeEpsilon ==> SqMag(r) == 1.0
    ensures mag(v) > NormalizeEpsilon ==> Cross(r, v) == Zero && Dot(r, v) >= 0.0
    ensures ExactAt(mag, v) && mag(v) > NormalizeEpsilon ==> Dot(r, v) == mag(v)
  {
    if mag(v) > NormalizeEpsilon then
      var k := 1.0 / mag(v);
      SqMagScale(v, k);
      assert Dot(Scale(v, k), v) == k * SqMag(v);
      assert SqMag(v) >= 0.0;
      assert ExactAt(mag, v) ==> k * k * SqMag(v) == 1.0 by {
        if ExactAt(mag, v) {
          assert k * mag(v) == 1.0;
          assert k * k * (mag(v) * mag(v)) == (k * mag(v)) * (k * mag(v));
        }
      }
      assert ExactAt(mag, v) ==> k * SqMag(v) == mag(v) by {
        if ExactAt(mag, v) {
          assert k * mag(v) == 1.0;
          assert k * (mag(v) * mag(v)) == (k * mag(v)) * mag(v);
        }
      }
      Scale(v, k)
    else
      Zero
  }

  /** Scaling multiplies the squared length by the square of the factor. */
  lemma SqMagScale(v: Vec3, k: real)
    ensures SqMag(Scale(v, k)) == k * k * SqMag(v)
  {
  }

  /** Scaling one side scales the dot product by the same factor. */
  lemma DotScale(a: Vec3, k: real, b: Vec3)
    ensures Dot(Scale(a, k), b) == k * Dot(a, b)
  {
  }

  /** Scaling one side scales the cross product by the same factor. */
  lemma CrossScale(a: Vec3, k: real, b: Vec3)
    ensures Cross(Scale(a, k), b) == Scale(Cross(a, b), k)
  {
  }
}

=== FILE: world.dfy ===
/** One match: the player, the railgun's last shot time, the bots, the spawn
    manager and the game manager, wired together the way the scripts call
    each other. A shot that hits a bot kills it (`Enemy.Die`, which tells
    the spawn manager) and credits a kill (`OnEnemyKilled`); a bot shot that
    hits the player kills the player (which tells the game manager); a
    friendly-fire hit kills the other bot and credits the player. */
module World {
  import opened Base
  import opened Vectors
  import Movement
  import Player
  import PlayerFacts
  import Railgun
  import Enemy
  import Spawning
  import Game

  datatype Config = Config(
    move: Movement.MoveConfig,
    weapon: Railgun.WeaponConfig,
    bots: Enemy.EnemyConfig,
    spawn: Spawning.SpawnConfig)
  {
    /** What the operations below divide by. */
    predicate Usable() {
      move.dashDuration != 0.0 && weapon.maxEffectiveHeight != 0.0
    }
  }

  /** The match state: bots are kept after death (a destroyed bot is a dead
      entry). */
  datatype World = World(
    player: Player.PlayerState,
    lastFireTime: real,
    bots: map<EnemyId, Enemy.EnemyState>,
    spawner: Spawning.Spawner,
    score: Game.Score)

  /** What can happen next. */
  datatype Event =
    | PlayerFrame(input: Player.Intent, playerFrame: Player.Frame)
    | TriggerPull(now: real, paused: bool, clicked: bool, hit: Option<Railgun.RayHit>,
                  groundDistance: real, mag: Magnitude)
    | BotFrame(id: EnemyId, botFrame: Enemy.EnemyFrame)
    | SpawnNow(now: real, pick: nat, draws: nat -> Spawning.FlatDraw, mag: Magnitude)
    | SpawnTimer(now: real, pick: nat, draws: nat -> Spawning.FlatDraw, mag: Magnitude)
    | RespawnTimer(now: real, spawnChoice: Option<Vec3>)

  /** A match before `SpawnManager.Start`: the player at its start position,
      no bots, nothing counted. */
  function Opening(points: seq<Vec3>, playerPosition: Vec3): (w: World)
    ensures w.bots == map[] && w.spawner.active == [] && w.score == Game.Start
    ensures !w.player.isDead && w.player.position == playerPosition
  {
    World(Player.Spawned(playerPosition), Railgun.NeverFired, map[], Spawning.Fresh(points), Game.Start)
  }

  /** `SpawnInitialEnemies` from round `i` on: one `SpawnEnemy` per round
      while `i < maxEnemies`, round `i` using the draws `picks(i)` and
      `draws(i)`. */
  function InitialSpawns(cfg: Config, w: World, i: nat, now: real, picks: nat -> nat,
                         draws: nat -> (nat -> Spawning.FlatDraw), mag: Magnitude): (r: World)
    ensures r.score == w.score && r.player == w.player && r.lastFireTime == w.lastFireTime
    decreases cfg.spawn.maxEnemies - i
  {
    if i >= cfg.spawn.maxEnemies then w
    else
      var outcome := Spawning.SpawnEnemy(cfg.spawn, w.spawner, Some(w.player.position), picks(i), draws(i), mag);
      InitialSpawns(cfg, AddBot(cfg, w, outcome, now), i + 1, now, picks, draws, mag)
  }

  /** A match as `SpawnManager.Start` leaves it: the opening state, then the
      initial spawns. */
  function Begin(cfg: Config, points: seq<Vec3>, playerPosition: Vec3, now: real, picks: nat -> nat,
                 draws: nat -> (nat -> Spawning.FlatDraw), mag: Magnitude): (w: World)
    ensures w.score == Game.Start && w.lastFireTime == Railgun.NeverFired
    ensures !w.player.isDead && w.player.position == playerPosition
  {
    InitialSpawns(cfg, Opening(points, playerPosition), 0, now, picks, draws, mag)
  }

  // ---------------------------------------------------------------- invariant

  /** The bookkeeping the scripts keep in step:
      - the spawn manager's active list holds exactly the live bots, each
        once, and every bot id was handed out by it;
      - the spawn cap holds;
      - the player's kill count is never behind the spawn manager's. */
  predicate Consistent(cfg: Config, w: World) {
    && Spawning.Tracked(w.spawner)
    && (forall id :: id in w.spawner.active ==> id in w.bots && !w.bots[id].isDead)
    && (forall id :: id in w.bots && !w.bots[id].isDead ==> id in w.spawner.active)
    && (forall id :: id in w.bots ==> id < w.spawner.nextId && w.bots[id].id == id)
    && |w.spawner.active| <= Max0(cfg.spawn.maxEnemies)
    && w.score.kills >= w.spawner.killedCount
    && Player.JumpsInRange(w.player)
  }

  function Max0(n: int): (r: nat)
    ensures r >= n
  {
    if n < 0 then 0 else n
  }

  /** Each initial round that finds the arena below the cap adds exactly
      one bot, so the rounds fill it to `maxEnemies`; the invariant holds
      throughout. */
  lemma {:induction false} InitialSpawnsConsistent(cfg: Config, w: World, i: nat, now: real,
                                                   picks: nat -> nat,
                                                   draws: nat -> (nat -> Spawning.FlatDraw),
                                                   mag: Magnitude)
    requires Consistent(cfg, w) && |w.spawner.active| == i && i <= Max0(cfg.spawn.maxEnemies)
    ensures Consistent(cfg, InitialSpawns(cfg, w, i, now, picks, draws, mag))
    ensures |InitialSpawns(cfg, w, i, now, picks, draws, mag).spawner.active| == Max0(cfg.spawn.maxEnemies)
    decreases cfg.spawn.maxEnemies - i
  {
    if i < cfg.spawn.maxEnemies {
      var outcome := Spawning.SpawnEnemy(cfg.spawn, w.spawner, Some(w.player.position), picks(i), draws(i), mag);
      var next := AddBot(cfg, w, outcome, now);
      SpawnConsistent(cfg, w, now, picks(i), draws(i), mag, false);
      assert |next.spawner.active| == i + 1;
      InitialSpawnsConsistent(cfg, next, i + 1, now, picks, draws, mag);
    }
  }

  /** A match starts consistent, with exactly `maxEnemies` live bots (none
      for a negative setting). */
  lemma BeginConsistent(cfg: Config, points: seq<Vec3>, playerPosition: Vec3, now: real,
                        picks: nat -> nat, draws: nat -> (nat -> Spawning.FlatDraw), mag: Magnitude)
    ensures Consistent(cfg, Begin(cfg, points, playerPosition, now, picks, draws, mag))
    ensures |Begin(cfg, points, playerPosition, now, picks, draws, mag).spawner.active|
         == Max0(cfg.spawn.maxEnemies)
  {
    InitialSpawnsConsistent(cfg, Opening(points, playerPosition), 0, now, picks, draws, mag);
  }

  // ---------------------------------------------------------------- deaths

  /** `Enemy.Die` on bot `id`, then `OnEnemyKilled`. A bot that is already
      dead does not notify the spawn manager again, but the kill is still
      credited. An id the world does not know stands for no bot. */
  function KillBot(cfg: Config, w: World, id: EnemyId, now: real): (r: World)
    ensures id !in w.bots ==> r == w
    ensures id in w.bots ==>
      && r.score == Game.OnEnemyKilled(w.score)
      && r.bots == w.bots[id := w.bots[id].(isDead := true)]
      && r.spawner == (if w.bots[id].isDead then w.spawner
                       else Spawning.OnEnemyDied(cfg.spawn, w.spawner, id, now))
      && r.player == w.player && r.lastFireTime == w.lastFireTime
  {
    if id !in w.bots then w
    else
      var death := Enemy.Die(w.bots[id]);
      var spawner := if death.notified then Spawning.OnEnemyDied(cfg.spawn, w.spawner, id, now) else w.spawner;
      w.(bots := w.bots[id := death.state], spawner := spawner, score := Game.OnEnemyKilled(w.score))
  }

  /** `PlayerController.Die`, then `OnPlayerDeath` if the player was alive. */
  function KillPlayer(w: World, now: real): (r: World)
    ensures r.player.isDead
    ensures r.score == (if w.player.isDead then w.score
                        else Game.OnPlayerDeath(w.score, now, Game.RespawnDelay))
    ensures r.bots == w.bots && r.spawner == w.spawner && r.lastFireTime == w.lastFireTime
  {
    var death := Player.Die(w.player);
    w.(player := death.state,
       score := if death.notified then Game.OnPlayerDeath(w.score, now, Game.RespawnDelay) else w.score)
  }

  lemma KillBotConsistent(cfg: Config, w: World, id: EnemyId, now: real)
    requires Consistent(cfg, w)
    ensures Consistent(cfg, KillBot(cfg, w, id, now))
    ensures id in w.bots ==> id !in KillBot(cfg, w, id, now).spawner.active
  {
    if id in w.bots {
      var r := KillBot(cfg, w, id, now);
      forall other | other in r.spawner.active
        ensures other in r.bots && !r.bots[other].isDead
      {
        assert other != id;
      }
    }
  }

  // ---------------------------------------------------------------- the player's shot

  /** The player as the railgun sees it: its own `jumpForce`, and a ground
      distance of zero while grounded (`GetDistanceToGround`); the engine's
      downward ray gives `groundDistance` otherwise. */
  function HolderOf(cfg: Config, w: World, groundDistance: real): (h: Railgun.Holder)
    ensures h.state == w.player && h.jumpForce == cfg.move.jumpForce
    ensures w.player.isGrounded ==> h.groundDistance == 0.0
  {
    Railgun.Holder(w.player, cfg.move.jumpForce, if w.player.isGrounded then 0.0 else groundDistance)
  }

  /** The trigger pull: `Railgun.Update` decides whether a shot goes off; a
      kill goes through `KillBot`; a rail jump goes to `AddVelocity`. */
  function PullTrigger(cfg: Config, w: World, now: real, paused: bool, clicked: bool,
                       hit: Option<Railgun.RayHit>, groundDistance: real, mag: Magnitude): (r: World)
    requires cfg.Usable()
  {
    var shot := Railgun.Trigger(cfg.weapon, w.lastFireTime, now, paused, clicked, hit,
                                Some(HolderOf(cfg, w, groundDistance)), mag);
    ApplyShot(cfg, w, shot, now)
  }

  /** When the player's frame runs before the trigger pull at the same
      instant, a jump pressed in that frame earns the combo bonus. */
  lemma PressBeforeShotEarnsCombo(cfg: Config, w: World, input: Player.Intent, frame: Player.Frame,
                                  groundDistance: real)
    requires cfg.Usable() && input.jumpPressed && !frame.paused && !w.player.isDead
    ensures var after := Step(cfg, w, PlayerFrame(input, frame));
      Railgun.ComboMultiplier(cfg.weapon, HolderOf(cfg, after, groundDistance).state, frame.now)
        == cfg.weapon.jumpComboBonus
  {
  }

  /** When the trigger pull runs first, the shot sees only the press times
      of earlier frames: with the last of them older than the combo window
      (`Player.JumpComboWindow`) there is
      no combo, whatever is pressed later in the same frame. */
  lemma ShotBeforePressMissesCombo(cfg: Config, w: World, now: real, groundDistance: real)
    requires now - w.player.lastJumpPressTime > Player.JumpComboWindow
    ensures Railgun.ComboMultiplier(cfg.weapon, HolderOf(cfg, w, groundDistance).state, now) == 1.0
  {
  }

  /** The world after a shot's effects. */
  function ApplyShot(cfg: Config, w: World, shot: Railgun.Shot, now: real): (r: World)
    ensures r.lastFireTime == shot.lastFireTime
    ensures r.score.kills == w.score.kills + (if shot.killed.Some? && shot.killed.value in w.bots then 1 else 0)
    ensures r.score.deaths == w.score.deaths && r.score.pending == w.score.pending
    ensures r.bots.Keys == w.bots.Keys
    ensures shot.killed.Some? && shot.killed.value in w.bots ==> r.bots[shot.killed.value].isDead
    ensures forall id :: id in w.bots && Some(id) != shot.killed ==> id in r.bots && r.bots[id] == w.bots[id]
    ensures shot.impulse.None? ==> r.player == w.player
    ensures shot.impulse.Some? ==> r.player.velocity == Add(w.player.velocity, shot.impulse.value)
  {
    var killed := if shot.killed.Some? then KillBot(cfg, w, shot.killed.value, now) else w;
    var player := if shot.impulse.Some? then Player.AddVelocity(killed.player, shot.impulse.value) else killed.player;
    killed.(lastFireTime := shot.lastFireTime, player := player)
  }

  lemma ApplyShotConsistent(cfg: Config, w: World, shot: Railgun.Shot, now: real)
    requires Consistent(cfg, w)
    ensures Consistent(cfg, ApplyShot(cfg, w, shot, now))
  {
    if shot.killed.Some? {
      KillBotConsistent(cfg, w, shot.killed.value, now);
    }
  }

  /** A shot that goes off with the gun cooling down is impossible, and a
      pull that does not fire changes nothing at all. */
  lemma IdleTriggerChangesNothing(cfg: Config, w: World, now: real, paused: bool, clicked: bool,
                                  hit: Option<Railgun.RayHit>, groundDistance: real, mag: Magnitude)
    requires cfg.Usable()
    requires paused || !clicked || w.player.isDead || !Railgun.CanFire(cfg.weapon, w.lastFireTime, now)
    ensures PullTrigger(cfg, w, now, paused, clicked, hit, groundDistance, mag) == w
  {
  }

  /** Hitting a bot that is already dead (in the moment before it is
      destroyed) still credits a kill, but the spawn manager does not count
      it again and schedules no respawn. */
  lemma DeadBotHitStillCounts(cfg: Config, w: World, id: EnemyId, now: real)
    requires id in w.bots && w.bots[id].isDead
    ensures KillBot(cfg, w, id, now).score.kills == w.score.kills + 1
    ensures KillBot(cfg, w, id, now).spawner == w.spawner
  {
  }

  /** Killing a live bot advances both kill counts together and schedules
      exactly one bot respawn. */
  lemma LiveBotKillCountsOnce(cfg: Config, w: World, id: EnemyId, now: real)
    requires Consistent(cfg, w) && id in w.bots && !w.bots[id].isDead
    ensures var r := KillBot(cfg, w, id, now);
      && r.score.kills == w.score.kills + 1
      && r.spawner.killedCount == w.spawner.killedCount + 1
      && |r.spawner.pending| == |w.spawner.pending| + 1
      && |r.spawner.active| == |w.spawner.active| - 1
  {
    assert id in w.spawner.active;
  }

  // ---------------------------------------------------------------- bot frames

  /** A bot's `Update`, then the effect of its attack on whoever it hit: a
      player hit kills the player (one death if it was alive), a
      friendly-fire hit kills the other bot and credits a kill, and a miss
      changes only the bot. */
  function BotStep(cfg: Config, w: World, id: EnemyId, f: Enemy.EnemyFrame): (r: World)
    ensures id !in w.bots ==> r == w
    ensures r.lastFireTime == w.lastFireTime && r.bots.Keys == w.bots.Keys
    ensures r.score.kills >= w.score.kills && r.score.deaths >= w.score.deaths
    ensures id in w.bots && Enemy.Update(cfg.bots, w.bots[id], f).attack.None? ==>
      r == w.(bots := w.bots[id := Enemy.Update(cfg.bots, w.bots[id], f).state])
    ensures id in w.bots && Enemy.Update(cfg.bots, w.bots[id], f).attack.Some? ==>
      var c := Enemy.Resolve(cfg.bots, w.bots[id], f.attackHit);
      && (c == Enemy.PlayerDies ==>
            && r.player.isDead && r.bots == w.bots[id := Enemy.Update(cfg.bots, w.bots[id], f).state]
            && r.score == (if w.player.isDead then w.score
                           else Game.OnPlayerDeath(w.score, f.now, Game.RespawnDelay)))
      && (c.BotDies? && c.id in w.bots ==>
            r.bots[c.id].isDead && r.score == Game.OnEnemyKilled(w.score) && r.player == w.player)
      && (c == Enemy.NoCasualty ==> r.score == w.score && r.player == w.player)
  {
    if id !in w.bots then w
    else
      var tick := Enemy.Update(cfg.bots, w.bots[id], f);
      var moved := w.(bots := w.bots[id := tick.state]);
      if tick.attack.None? then moved
      else match tick.attack.value.casualty
        case NoCasualty => moved
        case PlayerDies => KillPlayer(moved, f.now)
        case BotDies(other) => KillBot(cfg, moved, other, f.now)
  }

  /** The frame a bot sees: its `player` transform is the player's own
      position (the player object exists for the whole match). */
  function BotView(w: World, f: Enemy.EnemyFrame): (g: Enemy.EnemyFrame)
    ensures g.player == Some(w.player.position)
    ensures g == f.(player := g.player)
  {
    f.(player := Some(w.player.position))
  }

  /** The source's attack gate for bot `id` in this world: alive, the player
      within detection and attack range, the cooldown over and the player in
      sight. */
  predicate BotShoots(cfg: Config, w: World, id: EnemyId, f: Enemy.EnemyFrame) {
    && id in w.bots && !w.bots[id].isDead
    && Enemy.DistanceTo(w.bots[id], w.player.position, f.mag) <= cfg.bots.detectionRange
    && Enemy.DistanceTo(w.bots[id], w.player.position, f.mag) <= cfg.bots.attackRange
    && Enemy.CanAttack(cfg.bots, w.bots[id], f.now) && f.seesPlayer
  }

  /** A bot that shoots and hits a living player with a controller kills
      it: one more death, one more pending respawn, no kill credited. */
  lemma BotShotKillsPlayer(cfg: Config, w: World, id: EnemyId, f: Enemy.EnemyFrame)
    requires cfg.Usable() && BotShoots(cfg, w, id, f) && !w.player.isDead
    requires f.attackHit == Some(Enemy.PlayerBody(true))
    ensures var r := Step(cfg, w, BotFrame(id, f));
      && r.player.isDead
      && r.score.deaths == w.score.deaths + 1 && r.score.kills == w.score.kills
      && |r.score.pending| == |w.score.pending| + 1
  {
    var g := BotView(w, f);
    assert Enemy.Update(cfg.bots, w.bots[id], g).attack.Some?;
    assert Enemy.Resolve(cfg.bots, w.bots[id], g.attackHit) == Enemy.PlayerDies;
  }

  /** With friendly fire on, a bot that shoots and hits another bot kills
      it and credits the player with a kill; the player is untouched. */
  lemma FriendlyFireCredits(cfg: Config, w: World, id: EnemyId, other: EnemyId, f: Enemy.EnemyFrame)
    requires cfg.Usable() && Consistent(cfg, w) && BotShoots(cfg, w, id, f) && cfg.bots.friendlyFire
    requires other != id && other in w.bots && f.attackHit == Some(Enemy.Bot(other))
    ensures var r := Step(cfg, w, BotFrame(id, f));
      && r.bots[other].isDead
      && r.score.kills == w.score.kills + 1 && r.score.deaths == w.score.deaths
      && r.player == w.player
  {
    var g := BotView(w, f);
    assert Enemy.Update(cfg.bots, w.bots[id], g).attack.Some?;
    assert w.bots[id].id == id;
    assert Enemy.Resolve(cfg.bots, w.bots[id], g.attackHit) == Enemy.BotDies(other);
  }

  /** A bot never kills itself, and a dead bot does nothing at all. */
  lemma BotStepSpares(cfg: Config, w: World, id: EnemyId, f: Enemy.EnemyFrame)
    requires Consistent(cfg, w) && id in w.bots
    ensures w.bots[id].isDead ==> BotStep(cfg, w, id, f) == w
    ensures !w.bots[id].isDead ==> !BotStep(cfg, w, id, f).bots[id].isDead
  {
    var tick := Enemy.Update(cfg.bots, w.bots[id], f);
    if tick.attack.Some? {
      Enemy.NeverSelfKill(cfg.bots, tick.attack.value.state, f.attackHit);
    }
  }

  lemma BotStepConsistent(cfg: Config, w: World, id: EnemyId, f: Enemy.EnemyFrame)
    requires Consistent(cfg, w)
    ensures Consistent(cfg, BotStep(cfg, w, id, f))
  {
    if id in w.bots {
      var tick := Enemy.Update(cfg.bots, w.bots[id], f);
      var moved := w.(bots := w.bots[id := tick.state]);
      assert Consistent(cfg, moved);
      if tick.attack.Some? && tick.attack.value.casualty.BotDies? {
        KillBotConsistent(cfg, moved, tick.attack.value.casualty.id, f.now);
      }
    }
  }

  // ---------------------------------------------------------------- spawning

  /** `SpawnEnemy`'s result put into the world: the new bot runs `Start`. */
  function AddBot(cfg: Config, w: World, outcome: Spawning.SpawnOutcome, now: real): (r: World)
    ensures outcome.spawned.None? ==> r.bots == w.bots
    ensures outcome.spawned.Some? ==>
      r.bots == w.bots[outcome.spawned.value.id :=
        Enemy.Spawned(cfg.bots, outcome.spawned.value.id, outcome.spawned.value.position, now)]
    ensures r.spawner == outcome.spawner && r.score == w.score && r.player == w.player
  {
    var bots := if outcome.spawned.None? then w.bots
      else w.bots[outcome.spawned.value.id :=
        Enemy.Spawned(cfg.bots, outcome.spawned.value.id, outcome.spawned.value.position, now)];
    w.(bots := bots, spawner := outcome.spawner)
  }

  lemma SpawnConsistent(cfg: Config, w: World, now: real, pick: nat, draws: nat -> Spawning.FlatDraw,
                        mag: Magnitude, timer: bool)
    requires Consistent(cfg, w)
    ensures var sp := if timer then w.spawner.(pending := if |w.spawner.pending| > 0 then w.spawner.pending[1..] else [])
                      else w.spawner;
      Consistent(cfg, AddBot(cfg, w.(spawner := sp),
                             Spawning.SpawnEnemy(cfg.spawn, sp, Some(w.player.position), pick, draws, mag), now))
  {
    var sp := if timer then w.spawner.(pending := if |w.spawner.pending| > 0 then w.spawner.pending[1..] else [])
              else w.spawner;
    var outcome := Spawning.SpawnEnemy(cfg.spawn, sp, Some(w.player.position), pick, draws, mag);
    var r := AddBot(cfg, w.(spawner := sp), outcome, now);
    if outcome.spawned.Some? {
      assert sp.nextId !in w.bots;
      assert sp.nextId !in w.spawner.active;
      forall id | id in r.bots
        ensures id < r.spawner.nextId && r.bots[id].id == id
      {
      }
    }
  }

  // ---------------------------------------------------------------- events

  function Step(cfg: Config, w: World, e: Event): (r: World)
    requires cfg.Usable()
    ensures r.score.kills >= w.score.kills && r.score.deaths >= w.score.deaths
  {
    match e
    case PlayerFrame(input, frame) =>
      w.(player := Player.Update(cfg.move, w.player, input, frame).state)
    case TriggerPull(now, paused, clicked, hit, groundDistance, mag) =>
      PullTrigger(cfg, w, now, paused, clicked, hit, groundDistance, mag)
    case BotFrame(id, frame) =>
      BotStep(cfg, w, id, BotView(w, frame))
    case SpawnNow(now, pick, draws, mag) =>
      AddBot(cfg, w, Spawning.SpawnEnemy(cfg.spawn, w.spawner, Some(w.player.position), pick, draws, mag), now)
    case SpawnTimer(now, pick, draws, mag) =>
      AddBot(cfg, w, Spawning.FireRespawnTimer(cfg.spawn, w.spawner, now, Some(w.player.position), pick, draws, mag), now)
    case RespawnTimer(now, spawnChoice) =>
      var respawned := Game.FireRespawnTimer(w.score, now, Some(w.player), spawnChoice);
      w.(player := respawned.player.value, score := respawned.score)
  }

  /** Every event keeps the bookkeeping consistent. */
  lemma StepConsistent(cfg: Config, w: World, e: Event)
    requires cfg.Usable() && Consistent(cfg, w)
    ensures Consistent(cfg, Step(cfg, w, e))
  {
    match e
    case PlayerFrame(input, frame) =>
      PlayerFrameConsistent(cfg, w, input, frame);
    case TriggerPull(now, paused, clicked, hit, groundDistance, mag) =>
      var shot := Railgun.Trigger(cfg.weapon, w.lastFireTime, now, paused, clicked, hit,
                                  Some(HolderOf(cfg, w, groundDistance)), mag);
      ApplyShotConsistent(cfg, w, shot, now);
    case BotFrame(id, frame) =>
      BotStepConsistent(cfg, w, id, BotView(w, frame));
    case SpawnNow(now, pick, draws, mag) =>
      SpawnConsistent(cfg, w, now, pick, draws, mag, false);
    case SpawnTimer(now, pick, draws, mag) =>
      if |w.spawner.pending| > 0 && w.spawner.pending[0] <= now {
        SpawnConsistent(cfg, w, now, pick, draws, mag, true);
      }
    case RespawnTimer(now, spawnChoice) =>
      RespawnConsistent(cfg, w, now, spawnChoice);
  }

  lemma PlayerFrameConsistent(cfg: Config, w: World, input: Player.Intent, frame: Player.Frame)
    requires cfg.Usable() && Consistent(cfg, w)
    ensures Consistent(cfg, w.(player := Player.Update(cfg.move, w.player, input, frame).state))
  {
    PlayerFacts.UpdateKeepsJumpsInRange(cfg.move, w.player, input, frame);
  }

  lemma RespawnConsistent(cfg: Config, w: World, now: real, spawnChoice: Option<Vec3>)
    requires Consistent(cfg, w)
    ensures var respawned := Game.FireRespawnTimer(w.score, now, Some(w.player), spawnChoice);
      && respawned.player.Some?
      && Consistent(cfg, w.(player := respawned.player.value, score := respawned.score))
  {
  }

  /** The world after a history of events. */
  function Run(cfg: Config, w: World, events: seq<Event>): (r: World)
    requires cfg.Usable()
    decreases |events|
  {
    if |events| == 0 then w else Run(cfg, Step(cfg, w, events[0]), events[1..])
  }

  /** Over any history the bookkeeping stays consistent (so the spawn cap
      holds and each live bot is listed once) and the score never goes
      down. */
  lemma {:induction false} RunConsistent(cfg: Config, w: World, events: seq<Event>)
    requires cfg.Usable() && Consistent(cfg, w)
    ensures Consistent(cfg, Run(cfg, w, events))
    ensures Run(cfg, w, events).score.kills >= w.score.kills
    ensures Run(cfg, w, events).score.deaths >= w.score.deaths
    decreases |events|
  {
    if |events| > 0 {
      StepConsistent(cfg, w, events[0]);
      RunConsistent(cfg, Step(cfg, w, events[0]), events[1..]);
    }
  }
}
